=== FILE: README.md ===
# txriakidx secondary indexes, in Dafny

txriakidx adds secondary indexes to a Twisted Riak client. An index
`RiakIndex(bucket, key_prefix, indexed_field, field_type)` covers the
records of `bucket` whose key reads `<key_prefix>_<name>`. The client's
`add_index` registers it under `<bucket>=<key_prefix>` and the field name.

Storing a covered record has two parts:

- The record is written first.
- Then, for every registered field, the index record for the old value
  (the snapshot `set_data` took) is removed. The index record for the new
  value is written.

An index record lives in the bucket `idx=<bucket>=<key_prefix>=<field>`. Its
key is `<name>/<escaped value>`. The value is escaped with `urllib.quote`
using an empty safe set, so it holds no `/` and no `=`.

Deleting a covered record removes the record and then the index records
its current data calls for. A query builds a MapReduce job. The job
URL-decodes each index key, keeps its second `/`-separated token and converts it
for int, float and bool indexes. It compares the result with the operand
and reduces with the identity. The matches are then decoded back into
(bucket, key, value) rows.

The project models these modules:

- `Text`: byte strings, `split(c, 1)`, counting and lower-casing.
- `Errors`: the exceptions the code raises and a `Result` type. It also
  has `MapAll`, the "decode each, stop at the first failure" loop.
- `Codec`: `urllib.quote`/`unquote`, `_escval`, `_unescval` and
  `int()`/`unicode()` of integers.
- `Naming`: index bucket and index key names, the key split at the first
  `_`, and `_decode_index_key`.
- `Registry`: `RiakIndex.__init__`'s type check and the
  `RiakClient.add_index` registry.
- `Lifecycle`: `set_data`, `store` and `delete` over an abstract store.
- `Query`: the job `query` builds, and how its matches are decoded.
- `LifecycleProperties`, `QueryProperties` and `Scenarios`: properties
  that relate several operations, and the unit tests' concrete cases.

Some inputs to the model are explicit:

- **The store.** A value mapping (bucket, key) to JSON data. An index
  record holds empty data.
- **Field order.** The order in which the registry's dictionary lists
  fields is a parameter. It must list exactly the registered fields.
- **The job.** Running the job is a caller-supplied function from the job
  to its outcome.
- **Partial effects.** An exception part-way through `store` or `delete`
  keeps every write made before it. So each operation returns the store
  together with how it ended.

## Model

| member | source | states |
|---|---|---|
| Text.SplitFirst | txriakidx/riakidx.py:153 | `split(c, 1)` splits at the first `c`. The head holds no `c`. The parts rejoin to the input. There is no split exactly when `c` does not occur. |
| Text.SplitFirstOfJoin | txriakidx/riakidx.py:153 | Joining a `c`-free head to any tail with `c` splits back into that head and tail. |
| Text.Lower | txriakidx/riakidx.py:246 | `lower()` maps A-Z to a-z and keeps every other byte and the length. |
| Errors.MapAll | txriakidx/riakidx.py:320-335 | Decoding a list succeeds exactly when every element decodes. It keeps the order and length. A failure is the first failing element's error. |
| Codec.Quote | txriakidx/riakidx.py:112 | Every byte `urllib.quote` writes is always-safe, in the caller's safe set, or `%`. When the safe set does not spare `%`, every `%` opens a triple with two upper-case hex digits. The output is never shorter than the input. |
| Codec.QuoteAppend | txriakidx/riakidx.py:112 | Quoting works byte by byte: quoting a concatenation concatenates the quoted parts. |
| Codec.UnquoteQuote | txriakidx/riakidx.py:112-124 | `unquote(quote(s, safe)) == s` for every safe set that does not spare `%`. |
| Codec.UnquoteAppend | txriakidx/riakidx.py:124 | A `%`-free prefix passes through `unquote` unchanged, and the rest is unquoted on its own. |
| Codec.Unquote | txriakidx/riakidx.py:124 | `urllib.unquote` never lengthens its input and leaves `%`-free text unchanged. |
| Codec.Escape | txriakidx/riakidx.py:112 | Quoting with `safe=""` leaves no `/` or `=`. Every output byte is always-safe or `%`. |
| Codec.EscapeRoundTrip | txriakidx/riakidx.py:99-124 | Unescaping an escaped string gives it back. |
| Codec.EscapeIdentity | txriakidx/riakidx.py:112 | Escaping leaves a string unchanged exactly when all its bytes are letters, digits, `_`, `.` or `-`. |
| Codec.DecimalText | txriakidx/riakidx.py:112 | `unicode(i)` is non-empty and all-safe. It starts with `-` exactly for negative `i`. It is canonical: its first digit is `0` only for zero. |
| Codec.EscapeValue | txriakidx/riakidx.py:99-112 | `_escval` output holds no `/` or `=`. It has the quoted shape and unquotes to the value's text (bools as `1`/`0`). |
| Codec.EscapeScalars | txriakidx/riakidx.py:108-112 | `True` and `False` escape to `1` and `0`, like the integers 1 and 0. An integer escapes to its decimal text. |
| Codec.UnescapeValue | txriakidx/riakidx.py:114-124 | `_unescval` reads any escaped value back as that value's text, and leaves `%`-free text as it is. |
| Codec.ParseDecimalText | txriakidx/riakidx.py:326-327 | `int(unicode(i)) == i` for every integer. |
| Codec.ParseInt | txriakidx/riakidx.py:298 | `int(text)` accepts exactly a non-empty run of decimal digits, optionally after one `-` or `+`. The value is the digits' decimal value, negated after a `-`. A negative result comes only from a leading `-`. |
| Codec.RenderParses | txriakidx/riakidx.py:108-112 | `unicode()` of an integer, or of a bool turned into 0 or 1, reads back through `int()` as that integer. Floats and strings render as their own text. |
| Naming.SplitKey | txriakidx/riakidx.py:153 | A key splits exactly when it holds `_`. The prefix is `_`-free and the parts rejoin to the key. Otherwise the unpacking error is raised. |
| Naming.SplitKeyOfJoin | txriakidx/riakidx.py:153 | A key built from a `_`-free prefix and any name splits back into them. |
| Naming.KeyPrefix | txriakidx/riakidx.py:153 | The prefix holds no `_`. When the key holds `_`, the prefix and the local name rejoin to the key. A key without `_` is its own prefix. |
| Naming.DecodeIndexKey | txriakidx/riakidx.py:252-263 | `_decode_index_key` succeeds exactly when the key holds `/`, and otherwise raises the unpacking error. The name is the text before the first `/`. The value is the rest, unquoted. |
| Naming.DecodeIndexKeyRoundTrip | txriakidx/riakidx.py:224 | An index key built from a `/`-free name and an escaped value decodes to the name and the value's text. |
| Naming.SlashInNameMisparses | txriakidx/riakidx.py:262 | A local name holding `/` is cut there: `a/b` with value 7 decodes as name `a` and value `b/7`. |
| Naming.IndexKeyInjective | txriakidx/riakidx.py:224 | With `/`-free escaped values, equal index keys have equal names and values. |
| Naming.IndexBucketInjective | txriakidx/riakidx.py:223 | With `=`-free buckets and prefixes, equal index buckets have equal bucket, prefix and field. |
| Naming.IndexBucketFieldInjective | txriakidx/riakidx.py:223 | Within one bucket and prefix, distinct fields have distinct index buckets. |
| Naming.IndexBucketAmbiguous | txriakidx/riakidx.py:223 | Without that restriction, (`a=b`, `c`, `d`) and (`a`, `b`, `c=d`) share an index bucket. |
| Registry.ParseFieldType | txriakidx/riakidx.py:245-250 | The lower-cased type name is accepted exactly when it is one of the five allowed names. The type read names it. Otherwise `IllegalDatatypeError` carries the lower-cased name. |
| Registry.ParseTypeName | txriakidx/riakidx.py:245-250 | Every type is accepted from its own name in any letter case. |
| Registry.NewIndex | txriakidx/riakidx.py:226-250 | `RiakIndex.__init__` keeps bucket, prefix and field and has no client. It fails exactly on a disallowed type name. |
| Registry.AddIndex | txriakidx/riakidx.py:65-81 | Anything but an index is refused. An index is stored, bound, under its group and field. Every other group and every other field of its group is unchanged. |
| Registry.Register | txriakidx/riakidx.py:77-80 | The registry gains the index's group and no other key. In that group the index's field maps to the index. Every other field of the group keeps its entry. Every other group is unchanged. |
| Registry.LookupAddIndex | txriakidx/riakidx.py:77-80 | After `add_index`, the fields registered for the index's own (bucket, prefix) pair gain its field. Every other pair's fields are unchanged. |
| Registry.AddIndexKeepsWellFormed | txriakidx/riakidx.py:77-81 | After `add_index`, every registered index still sits under its own group and field and is bound. |
| Registry.AddIndexIdempotent | txriakidx/riakidx.py:77-81 | Adding the same index twice is the same as adding it once. |
| Registry.AddIndexReplaces | txriakidx/riakidx.py:80 | A later index for the same bucket, prefix and field replaces the earlier one entirely. |
| Registry.AddIndexCommutes | txriakidx/riakidx.py:77-80 | Indexes for different (group, field) pairs can be added in either order. |
| Lifecycle.Put | txriakidx/riakidx.py:150 | Writing a record sets that location and leaves every other one as it was. |
| Lifecycle.Remove | txriakidx/riakidx.py:173 | Deleting a record empties that location and leaves every other one as it was. |
| Lifecycle.NewObject | txriakidx/riakidx.py:90-96 | A new object keeps the bucket, key and data it is given and has no snapshot of earlier data. |
| Lifecycle.SetData | txriakidx/riakidx.py:126-140 | `set_data` replaces the data. When the object held data, that data becomes the snapshot. Otherwise the snapshot is kept. |
| Lifecycle.FieldsFor | txriakidx/riakidx.py:153-160 | A key without `_` has no indexed fields. Otherwise they are the fields registered for the bucket and the key's prefix. |
| Lifecycle.StoreField | txriakidx/riakidx.py:162-180 | One field's pass removes the snapshot value's index record and writes the new value's. It raises a missing-field error exactly when a value it needs is missing. It touches no bucket other than the record's index buckets. |
| Lifecycle.StoreFields | txriakidx/riakidx.py:159-180 | The loop completes exactly when every field is present. If so, it has erased the snapshot's index records and written the new ones, and changed nothing else. A failure names a field of the loop that is missing. |
| Lifecycle.StoreObject | txriakidx/riakidx.py:142-182 | `store` always writes the record. A key without `_` raises after that write. For a covered key it completes exactly when every registered field is present. Then the old index records are gone and the new ones are written. Every other location outside the record's index buckets is untouched. |
| Lifecycle.DeleteField | txriakidx/riakidx.py:200-211 | One field's pass removes the current value's index record, or raises a missing-field error and changes nothing. |
| Lifecycle.DeleteFields | txriakidx/riakidx.py:200-211 | The loop completes exactly when every field is present. If so, it has removed exactly the current data's index records. |
| Lifecycle.DeleteObject | txriakidx/riakidx.py:184-213 | `delete` always removes the record. A key without `_` raises after that. For a covered key it completes exactly when every registered field is present. Then exactly the current data's index records are removed as well. Every other location outside the record's index buckets is untouched. |
| LifecycleProperties.IndexLocOwner | txriakidx/riakidx.py:223-224 | With `=`-free buckets and prefixes, an index record names the one record, field and value text it was written for. |
| LifecycleProperties.StoreWritesEveryEntry | txriakidx/riakidx.py:159-180 | After a complete store, the record holds its data. Every registered field has an index record for its current value. |
| LifecycleProperties.StoreUnindexedKey | txriakidx/riakidx.py:157 | A key whose prefix has no registered index is stored as a plain record. |
| LifecycleProperties.UpdateMovesEntry | txriakidx/riakidx.py:136-138 | After `set_data` and a complete store, the old value's index record is gone when the value changed. The new value's index record is present. |
| LifecycleProperties.StoreWithoutSnapshotKeepsEntries | txriakidx/riakidx.py:168 | A store without a snapshot removes nothing. |
| LifecycleProperties.StaleEntrySurvives | txriakidx/riakidx.py:168-173 | Storing a new object over an existing key leaves the earlier value's index record in place. |
| LifecycleProperties.DeleteRemovesEveryEntry | txriakidx/riakidx.py:192-211 | After a complete delete, neither the record nor any of its data's index records remain. |
| LifecycleProperties.DeleteUndoesStore | txriakidx/riakidx.py:142-213 | Storing a new object and then deleting it removes the record and its index records. Every other location is as before. |
| LifecycleProperties.StorePreservesConsistency | txriakidx/riakidx.py:142-182 | A complete store of a record in an `=`-free bucket and prefix keeps every record's index records present. |
| LifecycleProperties.DeletePreservesConsistency | txriakidx/riakidx.py:184-213 | A complete delete keeps every remaining record's index records present. |
| Query.IntOf | txriakidx/riakidx.py:297-298 | `int(value)` gives an integer as it is and a bool as 0 or 1. Text succeeds exactly when it parses, with the parsed integer. A float is refused. Every failure names the value's text. |
| Query.IntOfRender | txriakidx/riakidx.py:298 | `int()` of an integer or bool agrees with `int()` of its text. |
| Query.Operand | txriakidx/riakidx.py:292-302 | The compared value is unchanged for int and float indexes and `int(value)` for bool indexes. It is `_escval(value)` for string indexes. It fails exactly when a bool index's value is not an integer. |
| Query.Conversion | txriakidx/riakidx.py:292-297 | At most one conversion filter. It is `string_to_int` exactly for int and bool indexes and `string_to_float` exactly for float indexes. A str or unicode index gets no conversion filter. |
| Query.BuildJob | txriakidx/riakidx.py:288-312 | The job reads the index bucket quoted with `/` kept. It URL-decodes and tokenizes at `/`. It converts with `string_to_int` for int and bool indexes and `string_to_float` for float indexes. It compares last and reduces with the identity. It fails exactly as the operand does. |
| Query.SplitIndexBucket | txriakidx/riakidx.py:322 | `split("=", 3)` unpacks exactly when the name holds three `=`, and otherwise raises the unpacking error. The parts are the texts between the first and second `=` and between the second and third. |
| Query.SplitIndexBucketOfIndexBucket | txriakidx/riakidx.py:322 | An index bucket of an `=`-free bucket and prefix splits back into them. |
| Query.DecodeTyped | txriakidx/riakidx.py:325-331 | The declared type applied to the text. An int index gives `int(text)` and fails, naming the text, exactly when it is no integer. A float index keeps the text. A bool index gives `bool(text)`, true exactly for non-empty text. A string index gives the text itself. |
| Query.DecodeTypedRender | txriakidx/riakidx.py:325-329 | Integers and strings come back from their text as they were; a float comes back as its rendered text. |
| Query.DecodeBoolAlwaysTrue | txriakidx/riakidx.py:330-331 | A bool index reads both `1` and `0` as true. |
| Query.DecodeNames | txriakidx/riakidx.py:322-333 | A match decodes only when the index bucket has three `=`, the key has a `/` and the value fits the type. The row is the data bucket, then the prefix joined by `_` to the local name, then the typed value. Every failure is an unpacking or integer error. |
| Query.DecodeMatch | txriakidx/riakidx.py:322-324 | Both names are unquoted before decoding. A decoded match's index bucket holds three `=` and its key holds a `/`. Its bucket is the one named in the index bucket. Its key is the key prefix joined to the index name from the index key, and its value is the typed decoding of that key's value part. Every failure is an unpacking or integer error. |
| Query.DecodeMatches | txriakidx/riakidx.py:320-335 | The rows are the matches decoded in order. The query fails exactly when some match fails. It reports the error of the first match that fails. |
| Query.RunQuery | txriakidx/riakidx.py:266-335 | An index without a client fails and nothing else does with that error. A run failure becomes an index error carrying its message. Otherwise the rows are the decoded matches. |
| QueryProperties.Reported | txriakidx/riakidx.py:308 | A match reported in quoted form unquotes to the index record's bucket and key. |
| QueryProperties.DecodeEntryNames | txriakidx/riakidx.py:322-333 | The names of a stored index record decode to the record's bucket, key and typed value. |
| QueryProperties.QueryReadsEntryBack | txriakidx/riakidx.py:320-333 | A reported index record reads back as the record's bucket, key and value; a float value as its rendered text. A bool index gives true whatever was stored. |
| QueryProperties.ReportedKeyToken | txriakidx/riakidx.py:289-290 | The text after the first `/` of a reported key, once URL-decoded, is the stored escaped value. |
| QueryProperties.ComparisonSeesStoredValue | txriakidx/riakidx.py:292-302 | A string index compares the stored token with the same escaping. Int and bool indexes compare the token's integer with the operand. |
| QueryProperties.RawNamesUnquoteTwice | txriakidx/riakidx.py:323-324 | If names came back raw, a string value `%41` would be unquoted twice and read as `A`. |
| QueryProperties.QueryNeedsClient | txriakidx/tests/test_riakidx.py:106-113 | A query on a fresh index fails with the unbound-index error, whatever it asks. |
| Scenarios.EscapeSample | txriakidx/tests/test_riakidx.py:377-382 | Escaping `a/b!c=` for safe `a`, `b`, `c` gives `a%2Fb%21c%3D`. |
| Scenarios.UnescapeSample | txriakidx/tests/test_riakidx.py:384-389 | `_unescval` of `a%21c%3D` for `%`-free `a`, `c` gives `a!c=`. |
| Scenarios.DecodeIndexKeySample | txriakidx/tests/test_riakidx.py:96-104 | `<name>/<v>%21` decodes to the name and `<v>!`. |

## Left out

- Network and Deferreds: `w`, `dw` and the query timeout. The Riak
  client's own `store`, `get`, `delete` and `bucket` become `Put`,
  `Remove` and locations in an abstract store. The replaced client methods
  (lines 47 and 338) are installed globally; that patching is not modelled.
- Failures of the store itself. Every write succeeds; only the exceptions
  the code raises itself are modelled.
- The key filters are not evaluated. Riak evaluates them server-side; the
  job is data and its outcome is a parameter.
- UTF-8. `unicode(value).encode("utf-8")` and `.decode("utf-8")` are not
  modelled. Values are byte strings already encoded.
- Query.DecodeTyped: a float index keeps the value's text, because
  `float()` parsing is not modelled.
- Query.DecodeTypedRender: a float is modelled by the text `unicode()`
  gives for it, so the float round trip (and the float case of
  QueryProperties.QueryReadsEntryBack) is about that text only. Python's
  float-to-text conversion is not modelled, and it keeps twelve significant
  digits, so the float `float()` reads back can differ from the stored one.
- Query.IntOf: gives `NotAnInteger` for a float value rather than
  truncating it, because floats are kept as text. `int()` tolerating
  surrounding whitespace is not modelled.
- Codec.ParseInt: refuses text with surrounding whitespace, which Python's
  `int()` strips and accepts. Whitespace handling is not modelled.
- Values that are not int, float, bool or string are not modelled: nested
  JSON, `None` and lists. `_escval` would render them with `unicode()`.
- Details of the `RiakObject` constructor other than its bucket, key, data
  and cleared snapshot.
- Lifecycle.HasData: data `None` and `{}` are both modelled as the empty
  map. Indexing `None[field]` raises `TypeError` in the code; the model
  raises the missing-field error instead.
- LifecycleProperties.StorePreservesConsistency: covers only records whose
  bucket and key prefix hold no `=`. The index naming cannot tell the other
  records' index records apart (see `Naming.IndexBucketAmbiguous`).
- LifecycleProperties.DeletePreservesConsistency: same restriction.
- QueryProperties.QueryReadsEntryBack: assumes Riak reports the matched
  names in the quoted form the job was given. If names came back raw, the
  double unquote in lines 323-324 would change values holding `%`
  (`QueryProperties.RawNamesUnquoteTwice`).

=== FILE: codec.dfy ===
/** The value codec: how a field value becomes the escaped text stored in an
    index key (`RiakObject._escval`), and how that text is read back
    (`RiakObject._unescval`).

    Escaping follows Python 2's `urllib.quote`: letters, digits, `_`, `.` and
    `-` pass through, every other byte becomes `%XX` with upper-case hex
    digits.  Unescaping follows `urllib.unquote`: a `%` followed by two hex
    digits of either case is decoded, any other `%` is kept as it is. */
module Codec {
  import opened Text

  /** The bytes `urllib.quote` never escapes. */
  predicate AlwaysSafe(c: char)
  {
    ('A' <= c <= 'Z') || ('a' <= c <= 'z') || ('0' <= c <= '9') || c == '_' || c == '.' || c == '-'
  }

  predicate IsUpperHex(c: char)
  {
    ('0' <= c <= '9') || ('A' <= c <= 'F')
  }

  predicate IsHexDigit(c: char)
  {
    ('0' <= c <= '9') || ('A' <= c <= 'F') || ('a' <= c <= 'f')
  }

  /** The upper-case hex digit `quote` writes for a nibble. */
  function HexDigit(d: nat): (r: Byte)
    requires d < 16
    ensures IsUpperHex(r)
  {
    if d < 10 then ('0' as int + d) as char else ('A' as int + d - 10) as char
  }

  function HexValue(c: char): (r: nat)
    requires IsHexDigit(c)
    ensures r < 16
  {
    if '0' <= c <= '9' then c as int - '0' as int
    else if 'A' <= c <= 'F' then c as int - 'A' as int + 10
    else c as int - 'a' as int + 10
  }

  lemma HexValueOfDigit(d: nat)
    requires d < 16
    ensures IsHexDigit(HexDigit(d)) && HexValue(HexDigit(d)) == d
  {
  }

  /** One byte as `quote` writes it, given the caller's extra safe bytes. */
  function QuoteByte(b: Byte, safe: set<Byte>): (r: Bytes)
  {
    if AlwaysSafe(b) || b in safe then [b]
    else ['%', HexDigit(b as int / 16), HexDigit(b as int % 16)]
  }

  /** The shape of `quote`'s output: every byte is safe, or a `%` that opens
      a triple with two upper-case hex digits. */
  predicate Quoted(s: Bytes, safe: set<Byte>)
    decreases |s|
  {
    if |s| == 0 then true
    else if s[0] == '%' then |s| >= 3 && IsUpperHex(s[1]) && IsUpperHex(s[2]) && Quoted(s[3..], safe)
    else (AlwaysSafe(s[0]) || s[0] in safe) && Quoted(s[1..], safe)
  }

  /** `urllib.quote(s, safe)`. */
  function Quote(s: Bytes, safe: set<Byte>): (r: Bytes)
    ensures forall i :: 0 <= i < |r| ==> AlwaysSafe(r[i]) || r[i] in safe || r[i] == '%'
    ensures '%' !in safe ==> Quoted(r, safe)
    ensures |r| >= |s|
  {
    if |s| == 0 then []
    else
      var q, t := QuoteByte(s[0], safe), Quote(s[1..], safe);
      assert |q| == 1 ==> (q + t)[1..] == t;
      assert |q| == 3 ==> (q + t)[3..] == t;
      q + t
  }

  /** Quoting works byte by byte: the quote of a concatenation is the
      concatenation of the quotes. */
  lemma {:induction false} QuoteAppend(a: Bytes, b: Bytes, safe: set<Byte>)
    ensures Quote(a + b, safe) == Quote(a, safe) + Quote(b, safe)
    decreases |a|
  {
    if |a| == 0 {
      assert a + b == b;
    } else {
      assert (a + b)[0] == a[0];
      assert (a + b)[1..] == a[1..] + b;
      QuoteAppend(a[1..], b, safe);
    }
  }

  /** `urllib.unquote(s)`. */
  function Unquote(s: Bytes): (r: Bytes)
    ensures |r| <= |s|
    ensures '%' !in s ==> r == s
    decreases |s|
  {
    if |s| == 0 then []
    else if s[0] == '%' && |s| >= 3 && IsHexDigit(s[1]) && IsHexDigit(s[2]) then
      [(HexValue(s[1]) * 16 + HexValue(s[2])) as char] + Unquote(s[3..])
    else
      assert '%' !in s ==> '%' !in s[1..];
      [s[0]] + Unquote(s[1..])
  }

  /** Unquoting reads one quoted byte back and then carries on with the rest. */
  lemma UnquoteQuoteByte(b: Byte, safe: set<Byte>, t: Bytes)
    requires '%' !in safe
    ensures Unquote(QuoteByte(b, safe) + t) == [b] + Unquote(t)
  {
    var q := QuoteByte(b, safe);
    if AlwaysSafe(b) || b in safe {
      assert (q + t)[0] == b;
      assert (q + t)[1..] == t;
    } else {
      var hi, lo := b as int / 16, b as int % 16;
      HexValueOfDigit(hi);
      HexValueOfDigit(lo);
      assert (q + t)[0] == '%' && (q + t)[1] == HexDigit(hi) && (q + t)[2] == HexDigit(lo);
      assert (q + t)[3..] == t;
      assert (hi * 16 + lo) as char == b;
    }
  }

  /** Unquoting a quoted string gives the original bytes back, whatever the
      extra safe set, as long as it does not let `%` through unescaped. */
  lemma {:induction false} UnquoteQuote(s: Bytes, safe: set<Byte>)
    requires '%' !in safe
    ensures Unquote(Quote(s, safe)) == s
  {
    if |s| > 0 {
      assert Quote(s, safe) == QuoteByte(s[0], safe) + Quote(s[1..], safe);
      UnquoteQuoteByte(s[0], safe, Quote(s[1..], safe));
      UnquoteQuote(s[1..], safe);
    }
  }

  /** `unquote` walks a `%`-free prefix byte by byte. */
  lemma {:induction false} UnquoteAppend(a: Bytes, b: Bytes)
    requires '%' !in a
    ensures Unquote(a + b) == a + Unquote(b)
    decreases |a|
  {
    if |a| > 0 {
      assert (a + b)[0] == a[0] && a[0] != '%';
      assert (a + b)[1..] == a[1..] + b;
      UnquoteAppend(a[1..], b);
      assert Unquote(a + b) == [a[0]] + Unquote(a[1..] + b);
      assert a == [a[0]] + a[1..];
    } else {
      assert a + b == b;
    }
  }

  /** `_escval` escapes every byte outside the safe set: `safe=""`. */
  function Escape(s: Bytes): (r: Bytes)
    ensures Quoted(r, {})
    ensures forall i :: 0 <= i < |r| ==> AlwaysSafe(r[i]) || r[i] == '%'
    ensures '/' !in r && '=' !in r
  {
    Quote(s, {})
  }

  lemma EscapeRoundTrip(s: Bytes)
    ensures Unquote(Escape(s)) == s
  {
    UnquoteQuote(s, {});
  }

  /** Escaping leaves a string unchanged exactly when every byte is safe. */
  lemma {:induction false} EscapeIdentity(s: Bytes)
    ensures Escape(s) == s <==> forall i :: 0 <= i < |s| ==> AlwaysSafe(s[i])
  {
    if |s| > 0 {
      EscapeIdentity(s[1..]);
      var q, t := QuoteByte(s[0], {}), Quote(s[1..], {});
      assert Escape(s) == q + t;
      if AlwaysSafe(s[0]) {
        assert (forall i :: 0 <= i < |s| ==> AlwaysSafe(s[i]))
           <==> (forall i :: 0 <= i < |s[1..]| ==> AlwaysSafe(s[1..][i]));
      } else {
        assert |Escape(s)| > |s| by {
          assert |q| == 3;
        }
      }
    }
  }

  // ---- Field values --------------------------------------------------------

  /** A value of a JSON data field that an index can cover.  A float is
      represented only by the text `unicode()` gives for it (twelve
      significant digits in Python 2), not by the number itself; a string
      by its UTF-8 bytes. */
  datatype Value =
    | IntV(i: int)
    | BoolV(b: bool)
    | FloatV(text: Bytes)
    | TextV(text: Bytes)

  predicate IsDigit(c: char)
  {
    '0' <= c <= '9'
  }

  function DigitChar(d: nat): (r: Byte)
    requires d < 10
    ensures IsDigit(r)
  {
    ('0' as int + d) as char
  }

  /** The decimal digits of a natural number, most significant first. */
  function Digits(n: nat): (r: Bytes)
    ensures |r| > 0
    ensures forall i :: 0 <= i < |r| ==> IsDigit(r[i])
    ensures n > 0 ==> r[0] != '0'
    decreases n
  {
    if n < 10 then [DigitChar(n)] else Digits(n / 10) + [DigitChar(n % 10)]
  }

  /** `unicode(i)` for an integer. */
  function DecimalText(i: int): (r: Bytes)
    ensures |r| > 0
    ensures forall k :: 0 <= k < |r| ==> AlwaysSafe(r[k])
    ensures i >= 0 <==> r[0] != '-'
    ensures i < 0 ==> |r| > 1
    ensures r[if i < 0 then 1 else 0] == '0' ==> i == 0
    ensures i == 0 ==> r == "0"
  {
    if i < 0 then "-" + Digits(-i) else Digits(i)
  }

  /** The text `unicode(value)` gives after `_escval` has turned a bool into `0`/`1`. */
  function Render(v: Value): (r: Bytes)
  {
    match v
    case IntV(i) => DecimalText(i)
    case BoolV(b) => if b then "1" else "0"
    case FloatV(f) => f
    case TextV(t) => t
  }

  /** `RiakObject._escval`. */
  function EscapeValue(v: Value): (r: Bytes)
    ensures Quoted(r, {})
    ensures '/' !in r && '=' !in r
    ensures Unquote(r) == Render(v)
  {
    EscapeRoundTrip(Render(v));
    Escape(Render(v))
  }

  /** `RiakObject._unescval`; the final UTF-8 decoding is not modelled, the
      bytes are returned as they are. */
  function UnescapeValue(s: Bytes): (r: Bytes)
    ensures forall v :: s == EscapeValue(v) ==> r == Render(v)
    ensures '%' !in s ==> r == s
  {
    Unquote(s)
  }

  /** Booleans escape to `1` and `0`, and integers to their decimal text:
      none of these bytes needs escaping. */
  lemma EscapeScalars(i: int)
    ensures EscapeValue(BoolV(true)) == "1"
    ensures EscapeValue(BoolV(false)) == "0"
    ensures EscapeValue(IntV(i)) == DecimalText(i)
    ensures EscapeValue(BoolV(true)) == EscapeValue(IntV(1))
  {
    EscapeIdentity("1");
    EscapeIdentity("0");
    EscapeIdentity(DecimalText(i));
    assert DecimalText(1) == "1";
  }

  // ---- int() ---------------------------------------------------------------

  predicate AllDigits(s: Bytes)
  {
    forall i :: 0 <= i < |s| ==> IsDigit(s[i])
  }

  function DigitsValue(s: Bytes): (r: nat)
    requires AllDigits(s)
    decreases |s|
  {
    if |s| == 0 then 0
    else DigitsValue(s[..|s| - 1]) * 10 + (s[|s| - 1] as int - '0' as int)
  }

  /** Python's `int(text)` on a decimal literal with an optional sign.
      Surrounding white space, which `int` would also accept, is not modelled. */
  function ParseInt(s: Bytes): (r: Option<int>)
    ensures r.Some? <==> (|s| > 0 && AllDigits(s)) || (|s| > 1 && (s[0] == '-' || s[0] == '+') && AllDigits(s[1..]))
    ensures r.Some? && AllDigits(s) ==> r.value == DigitsValue(s)
    ensures r.Some? && r.value < 0 ==> s[0] == '-'
    ensures r.Some? && |s| > 1 && (s[0] == '-' || s[0] == '+') && AllDigits(s[1..]) ==>
              r.value == (if s[0] == '-' then -(DigitsValue(s[1..]) as int) else DigitsValue(s[1..]))
  {
    if |s| > 1 && (s[0] == '-' || s[0] == '+') && AllDigits(s[1..]) then
      var m: int := DigitsValue(s[1..]);
      Some(if s[0] == '-' then -m else m)
    else if |s| > 0 && AllDigits(s) then Some(DigitsValue(s))
    else None
  }

  lemma {:induction false} DigitsValueOfDigits(n: nat)
    ensures DigitsValue(Digits(n)) == n
    decreases n
  {
    if n >= 10 {
      var d := Digits(n);
      assert d[..|d| - 1] == Digits(n / 10);
      DigitsValueOfDigits(n / 10);
    }
  }

  /** `int(unicode(i)) == i`: reading an integer's decimal text gives it back. */
  lemma ParseDecimalText(i: int)
    ensures ParseInt(DecimalText(i)) == Some(i)
  {
    if i < 0 {
      ParseNegative(-i);
    } else {
      ParseDigits(i);
    }
  }

  lemma ParseDigits(n: nat)
    ensures ParseInt(Digits(n)) == Some(n)
  {
    var s := Digits(n);
    assert IsDigit(s[0]);
    DigitsValueOfDigits(n);
  }

  lemma ParseNegative(n: nat)
    ensures ParseInt("-" + Digits(n)) == Some(-(n as int))
  {
    var s := "-" + Digits(n);
    assert s[1..] == Digits(n);
    DigitsValueOfDigits(n);
  }

  /** The text of an integer or a bool reads back through `int()` as the
      integer it stands for; floats and strings render as their own text. */
  lemma RenderParses(v: Value)
    ensures v.IntV? ==> ParseInt(Render(v)) == Some(v.i)
    ensures v.BoolV? ==> ParseInt(Render(v)) == Some(if v.b then 1 else 0)
    ensures v.FloatV? ==> Render(v) == v.text
    ensures v.TextV? ==> Render(v) == v.text
  {
    match v
    case IntV(i) => ParseDecimalText(i);
    case BoolV(b) =>
      assert ParseInt("1") == Some(1) by { assert DigitsValue("1") == DigitsValue("") * 10 + 1; }
      assert ParseInt("0") == Some(0) by { assert DigitsValue("0") == DigitsValue("") * 10; }
    case _ =>
  }
}

=== FILE: errors.dfy ===
/** The failures the index layer raises, and the result type that carries them. */
module Errors {
  import opened Text

  datatype Error =
    /** `errors.IllegalDatatypeError`: an index was declared with an unsupported field type. */
    | IllegalDatatype(typeName: Bytes)
    /** `errors.IndexError` from `add_index`: the argument is not an index definition. */
    | NotAnIndex
    /** `errors.IndexError` from `query`: the index was never added to a client. */
    | Unbound
    /** `errors.IndexError` wrapping whatever the map/reduce run reported. */
    | QueryFailed(message: Bytes)
    /** `ValueError` from unpacking a `split` that found too few separators. */
    | TooFewParts(text: Bytes)
    /** `KeyError`: the record's data has no entry for an indexed field. */
    | MissingField(field: Bytes)
    /** `ValueError` from `int()` on text that is not a decimal integer. */
    | NotAnInteger(text: Bytes)

  datatype Result<+T> = Ok(value: T) | Err(error: Error)

  /** Applies `f` to every element in turn; the first error ends the walk,
      as an exception raised inside a Python `for` loop does. */
  function MapAll<A, B>(f: A -> Result<B>, xs: seq<A>): (r: Result<seq<B>>)
    ensures r.Ok? <==> forall i :: 0 <= i < |xs| ==> f(xs[i]).Ok?
    ensures r.Ok? ==> |r.value| == |xs| && forall i :: 0 <= i < |xs| ==> r.value[i] == f(xs[i]).value
    ensures r.Err? ==> exists i :: 0 <= i < |xs| && f(xs[i]) == Err(r.error) && forall j :: 0 <= j < i ==> f(xs[j]).Ok?
    decreases |xs|
  {
    if |xs| == 0 then Ok([])
    else
      var head, tail := f(xs[0]), MapAll(f, xs[1..]);
      if head.Err? then
        assert f(xs[0]) == Err(head.error);
        Err(head.error)
      else if tail.Err? then
        var i :| 0 <= i < |xs[1..]| && f(xs[1..][i]) == Err(tail.error) && forall j :: 0 <= j < i ==> f(xs[1..][j]).Ok?;
        assert f(xs[i + 1]) == Err(tail.error);
        assert forall j :: 0 <= j < i + 1 ==> f(xs[j]).Ok? by {
          forall j | 0 <= j < i + 1 ensures f(xs[j]).Ok? {
            if j > 0 { assert xs[j] == xs[1..][j - 1]; }
          }
        }
        tail
      else
        assert forall i :: 0 <= i < |xs| ==> f(xs[i]).Ok? && ([head.value] + tail.value)[i] == f(xs[i]).value by {
          forall i | 0 <= i < |xs| ensures f(xs[i]).Ok? && ([head.value] + tail.value)[i] == f(xs[i]).value {
            if i > 0 { assert xs[i] == xs[1..][i - 1]; }
          }
        }
        Ok([head.value] + tail.value)
  }
}

=== FILE: lifecycle.dfy ===
/** Index maintenance around primary records: `RiakObject.set_data`,
    `RiakObject.store` and `RiakObject.delete`.

    The store is an abstract value mapping (bucket, key) locations to the
    data they hold; an index record is a location holding no data.  Every
    store or delete writes the primary record first and then, one registered
    field at a time, removes and writes index records.  An exception raised
    part-way (a key with no `_`, a missing field) leaves every write done
    before it in place, so each operation returns the resulting store
    together with how it ended. */
module Lifecycle {
  import opened Text
  import opened Errors
  import opened Codec
  import opened Naming
  import opened Registry

  datatype Loc = Loc(bucket: Bytes, key: Bytes)

  /** A record's JSON attribute mapping. */
  type Data = map<Bytes, Value>

  datatype Store = Store(objects: map<Loc, Data>)

  /** The body of an index record: only its existence matters. */
  const IndexBody: Data := map[]

  /** Python's truth value of a record's data: `None` and `{}` are both false,
      and both are modelled by the empty map. */
  predicate HasData(d: Data)
  {
    d != map[]
  }

  /** Location `l` looks the same in both stores. */
  predicate Same(a: Store, b: Store, l: Loc)
  {
    && (l in a.objects <==> l in b.objects)
    && (l in a.objects ==> a.objects[l] == b.objects[l])
  }

  /** `b` is `a` with every location of `marked` holding an (empty) index
      record, every other location of `erased` gone, and nothing else changed. */
  ghost predicate Applied(a: Store, b: Store, erased: set<Loc>, marked: set<Loc>)
  {
    forall l ::
      if l in marked then l in b.objects && b.objects[l] == IndexBody
      else if l in erased then l !in b.objects
      else Same(a, b, l)
  }

  /** Create or overwrite one object. */
  function Put(st: Store, l: Loc, d: Data): (r: Store)
    ensures l in r.objects && r.objects[l] == d
    ensures forall m :: m != l ==> Same(st, r, m)
  {
    Store(st.objects[l := d])
  }

  /** Delete one object; deleting an absent object changes nothing. */
  function Remove(st: Store, l: Loc): (r: Store)
    ensures l !in r.objects
    ensures forall m :: m != l ==> Same(st, r, m)
  {
    Store(st.objects - {l})
  }

  /** Where the index on `field` keeps the entry for local name `name` and value `v`. */
  function IndexLoc(bucket: Bytes, prefix: Bytes, name: Bytes, field: Bytes, v: Value): Loc
  {
    Loc(IndexBucket(bucket, prefix, field), IndexKey(name, EscapeValue(v)))
  }

  /** The index entries `d` calls for, one per field of `fields` it holds. */
  function IndexLocs(bucket: Bytes, prefix: Bytes, name: Bytes, d: Data, fields: set<Bytes>): set<Loc>
  {
    set f | f in fields && f in d :: IndexLoc(bucket, prefix, name, f, d[f])
  }

  /** The index entries a store removes: those of the snapshot, if there is one. */
  function OldIndexLocs(bucket: Bytes, prefix: Bytes, name: Bytes, snap: Data, fields: set<Bytes>): set<Loc>
  {
    if HasData(snap) then IndexLocs(bucket, prefix, name, snap, fields) else {}
  }

  /** The fields an iteration order lists. */
  function FieldSet(order: seq<Bytes>): (r: set<Bytes>)
    ensures forall f :: f in r <==> f in order
    ensures r == {} <==> |order| == 0
  {
    assert |order| > 0 ==> order[0] in set f | f in order;
    set f | f in order
  }

  /** A primary record as the client holds it: its location, its data, and
      the snapshot `set_data` took of the data it replaced (`_old_data`). */
  datatype Object = Object(bucket: Bytes, key: Bytes, data: Data, oldData: Data)

  function PrimaryLoc(o: Object): Loc
  {
    Loc(o.bucket, o.key)
  }

  /** `bucket.new(key, data)`: a new object has no snapshot. */
  function NewObject(bucket: Bytes, key: Bytes, data: Data): (r: Object)
    ensures r.bucket == bucket && r.key == key && r.data == data
    ensures !HasData(r.oldData)
  {
    Object(bucket, key, data, map[])
  }

  /** `RiakObject.set_data`: snapshot the current data when there is any,
      then replace it. */
  function SetData(o: Object, d: Data): (r: Object)
    ensures r.bucket == o.bucket && r.key == o.key && r.data == d
    ensures HasData(o.data) ==> r.oldData == o.data
    ensures !HasData(o.data) ==> r.oldData == o.oldData
  {
    if HasData(o.data) then o.(oldData := o.data, data := d) else o.(data := d)
  }

  /** How an operation ended. */
  datatype Status = Done | Raised(error: Error)

  /** The store an operation leaves behind, and how it ended. */
  datatype Effect = Effect(store: Store, status: Status)

  /** The registered fields that apply to a key of `bucket`: none when the key
      has no `_` or its prefix is not registered. */
  function FieldsFor(c: Client, bucket: Bytes, key: Bytes): (r: set<Bytes>)
    ensures '_' !in key ==> r == {}
    ensures '_' in key ==> r == Lookup(c, bucket, KeyPrefix(key))
  {
    match SplitKey(key)
    case Err(_) => {}
    case Ok((prefix, _)) => Lookup(c, bucket, prefix)
  }

  /** `order` lists exactly the given fields: the iteration order of the
      registry's dictionary, which the source leaves unspecified. */
  predicate Enumerates(order: seq<Bytes>, fields: set<Bytes>)
  {
    FieldSet(order) == fields
  }

  // ---- store ---------------------------------------------------------------

  /** One pass of the loop in `store`: remove the entry for the snapshot's
      value (if there is a snapshot), then write the entry for the current value. */
  function StoreField(st: Store, bucket: Bytes, prefix: Bytes, name: Bytes, snap: Data, data: Data, f: Bytes): (r: Effect)
    ensures r.status.Done? <==> f in data && (HasData(snap) ==> f in snap)
    ensures r.status.Raised? ==> r.status.error == MissingField(f)
    ensures r.status.Done? ==>
      Applied(st, r.store, OldIndexLocs(bucket, prefix, name, snap, {f}), IndexLocs(bucket, prefix, name, data, {f}))
    ensures forall l: Loc :: !IsIndexBucketOf(l.bucket, bucket, prefix) ==> Same(st, r.store, l)
  {
    var ib := IndexBucket(bucket, prefix, f);
    if HasData(snap) && f !in snap then Effect(st, Raised(MissingField(f)))
    else
      var st1 := if HasData(snap) then Remove(st, Loc(ib, IndexKey(name, EscapeValue(snap[f])))) else st;
      if f !in data then Effect(st1, Raised(MissingField(f)))
      else
        var r := Put(st1, Loc(ib, IndexKey(name, EscapeValue(data[f]))), IndexBody);
        assert IndexLocs(bucket, prefix, name, data, {f}) == {IndexLoc(bucket, prefix, name, f, data[f])};
        assert HasData(snap) ==> IndexLocs(bucket, prefix, name, snap, {f}) == {IndexLoc(bucket, prefix, name, f, snap[f])};
        Effect(r, Done)
  }

  /** The loop of `store` over the registered fields, in `order`. */
  function StoreFields(st: Store, bucket: Bytes, prefix: Bytes, name: Bytes, snap: Data, data: Data, order: seq<Bytes>): (r: Effect)
    ensures r.status.Done? <==> forall f :: f in order ==> f in data && (HasData(snap) ==> f in snap)
    ensures r.status.Raised? ==>
      && r.status.error.MissingField?
      && r.status.error.field in order
      && (r.status.error.field !in data || (HasData(snap) && r.status.error.field !in snap))
    ensures r.status.Done? ==>
      Applied(st, r.store, OldIndexLocs(bucket, prefix, name, snap, FieldSet(order)), IndexLocs(bucket, prefix, name, data, FieldSet(order)))
    ensures forall l: Loc :: !IsIndexBucketOf(l.bucket, bucket, prefix) ==> Same(st, r.store, l)
    decreases |order|
  {
    if |order| == 0 then Effect(st, Done)
    else
      var f := order[0];
      var e := StoreField(st, bucket, prefix, name, snap, data, f);
      if e.status.Raised? then e
      else
        var r := StoreFields(e.store, bucket, prefix, name, snap, data, order[1..]);
        if r.status.Done? then
          StoreFieldsStep(st, e.store, r.store, bucket, prefix, name, snap, data, order);
          r
        else r
  }

  /** Gluing one field's pass onto the passes over the remaining fields. */
  lemma StoreFieldsStep(st: Store, mid: Store, end: Store, bucket: Bytes, prefix: Bytes, name: Bytes,
                        snap: Data, data: Data, order: seq<Bytes>)
    requires |order| > 0
    requires forall f :: f in order ==> f in data && (HasData(snap) ==> f in snap)
    requires Applied(st, mid, OldIndexLocs(bucket, prefix, name, snap, {order[0]}), IndexLocs(bucket, prefix, name, data, {order[0]}))
    requires Applied(mid, end, OldIndexLocs(bucket, prefix, name, snap, FieldSet(order[1..])), IndexLocs(bucket, prefix, name, data, FieldSet(order[1..])))
    ensures Applied(st, end, OldIndexLocs(bucket, prefix, name, snap, FieldSet(order)), IndexLocs(bucket, prefix, name, data, FieldSet(order)))
  {
    var f := order[0];
    var rest := FieldSet(order[1..]);
    assert FieldSet(order) == {f} + rest;
    var o1, n1 := OldIndexLocs(bucket, prefix, name, snap, {f}), IndexLocs(bucket, prefix, name, data, {f});
    var o2, n2 := OldIndexLocs(bucket, prefix, name, snap, rest), IndexLocs(bucket, prefix, name, data, rest);
    OtherFieldsKeepEntry(bucket, prefix, name, snap, data, f, rest);
    AppliedCompose(st, mid, end, o1, n1, o2, n2);
    IndexLocsUnion(bucket, prefix, name, snap, {f}, rest);
    IndexLocsUnion(bucket, prefix, name, data, {f}, rest);
  }

  /** The entries of a union of fields are the union of their entries. */
  lemma IndexLocsUnion(bucket: Bytes, prefix: Bytes, name: Bytes, d: Data, fs: set<Bytes>, gs: set<Bytes>)
    ensures IndexLocs(bucket, prefix, name, d, fs + gs) == IndexLocs(bucket, prefix, name, d, fs) + IndexLocs(bucket, prefix, name, d, gs)
    ensures OldIndexLocs(bucket, prefix, name, d, fs + gs) == OldIndexLocs(bucket, prefix, name, d, fs) + OldIndexLocs(bucket, prefix, name, d, gs)
  {
  }

  /** The passes over the other fields never erase the entry field `f`'s
      pass writes, unless they write it again: each field has its own
      index bucket. */
  lemma OtherFieldsKeepEntry(bucket: Bytes, prefix: Bytes, name: Bytes, snap: Data, data: Data, f: Bytes, rest: set<Bytes>)
    requires f in data
    ensures IndexLocs(bucket, prefix, name, data, {f}) * OldIndexLocs(bucket, prefix, name, snap, rest)
         <= IndexLocs(bucket, prefix, name, data, rest)
  {
    forall l | l in IndexLocs(bucket, prefix, name, data, {f}) && l in OldIndexLocs(bucket, prefix, name, snap, rest)
      ensures l in IndexLocs(bucket, prefix, name, data, rest)
    {
      var g :| g in rest && g in snap && l == IndexLoc(bucket, prefix, name, g, snap[g]);
      IndexBucketFieldInjective(bucket, prefix, f, g);
    }
  }

  /** Two rounds of erasing and marking add up to one, as long as the second
      round does not erase what the first marked without marking it again. */
  lemma AppliedCompose(s0: Store, s1: Store, s2: Store, o1: set<Loc>, n1: set<Loc>, o2: set<Loc>, n2: set<Loc>)
    requires Applied(s0, s1, o1, n1) && Applied(s1, s2, o2, n2)
    requires n1 * o2 <= n2
    ensures Applied(s0, s2, o1 + o2, n1 + n2)
  {
    forall l
      ensures if l in n1 + n2 then l in s2.objects && s2.objects[l] == IndexBody
              else if l in o1 + o2 then l !in s2.objects
              else Same(s0, s2, l)
    {
      if l in n2 {
      } else if l in n1 {
        assert l !in o2;
      }
    }
  }

  /** `RiakObject.store`: write the primary record, then, when its key's
      prefix is registered for its bucket, maintain every registered index. */
  function StoreObject(c: Client, st: Store, o: Object, order: seq<Bytes>): (r: Effect)
    requires Enumerates(order, FieldsFor(c, o.bucket, o.key))
    ensures SplitKey(o.key).Err? ==> r == Effect(Put(st, PrimaryLoc(o), o.data), Raised(TooFewParts(o.key)))
    ensures SplitKey(o.key).Ok? ==>
      var prefix, name := SplitKey(o.key).value.0, SplitKey(o.key).value.1;
      var fields := Lookup(c, o.bucket, prefix);
      && (r.status.Done? <==> forall f :: f in fields ==> f in o.data && (HasData(o.oldData) ==> f in o.oldData))
      && (r.status.Raised? ==> r.status.error.MissingField? && r.status.error.field in fields)
      && (r.status.Done? ==>
            Applied(Put(st, PrimaryLoc(o), o.data), r.store,
                    OldIndexLocs(o.bucket, prefix, name, o.oldData, fields),
                    IndexLocs(o.bucket, prefix, name, o.data, fields)))
    ensures PrimaryLoc(o) in r.store.objects && r.store.objects[PrimaryLoc(o)] == o.data
    ensures forall l: Loc :: l != PrimaryLoc(o) && !IsIndexBucketOf(l.bucket, o.bucket, KeyPrefix(o.key)) ==> Same(st, r.store, l)
  {
    var st1 := Put(st, PrimaryLoc(o), o.data);
    NotOwnIndexBucket(o.bucket, KeyPrefix(o.key));
    match SplitKey(o.key)
    case Err(e) => Effect(st1, Raised(e))
    case Ok((prefix, name)) =>
      if GroupKey(o.bucket, prefix) !in c.indexes then
        Effect(st1, Done)
      else
        assert FieldSet(order) == Lookup(c, o.bucket, prefix);
        StoreFields(st1, o.bucket, prefix, name, o.oldData, o.data, order)
  }

  // ---- delete --------------------------------------------------------------

  /** One pass of the loop in `delete`: remove the entry for the current value. */
  function DeleteField(st: Store, bucket: Bytes, prefix: Bytes, name: Bytes, cur: Data, f: Bytes): (r: Effect)
    ensures r.status.Done? <==> f in cur
    ensures r.status.Raised? ==> r.status.error == MissingField(f) && r.store == st
    ensures r.status.Done? ==> Applied(st, r.store, IndexLocs(bucket, prefix, name, cur, {f}), {})
    ensures forall l: Loc :: !IsIndexBucketOf(l.bucket, bucket, prefix) ==> Same(st, r.store, l)
  {
    if f !in cur then Effect(st, Raised(MissingField(f)))
    else
      assert IndexLocs(bucket, prefix, name, cur, {f}) == {IndexLoc(bucket, prefix, name, f, cur[f])};
      Effect(Remove(st, IndexLoc(bucket, prefix, name, f, cur[f])), Done)
  }

  /** The loop of `delete` over the registered fields, in `order`. */
  function DeleteFields(st: Store, bucket: Bytes, prefix: Bytes, name: Bytes, cur: Data, order: seq<Bytes>): (r: Effect)
    ensures r.status.Done? <==> forall f :: f in order ==> f in cur
    ensures r.status.Raised? ==>
      r.status.error.MissingField? && r.status.error.field in order && r.status.error.field !in cur
    ensures r.status.Done? ==> Applied(st, r.store, IndexLocs(bucket, prefix, name, cur, FieldSet(order)), {})
    ensures forall l: Loc :: !IsIndexBucketOf(l.bucket, bucket, prefix) ==> Same(st, r.store, l)
    decreases |order|
  {
    if |order| == 0 then Effect(st, Done)
    else
      var f := order[0];
      var e := DeleteField(st, bucket, prefix, name, cur, f);
      if e.status.Raised? then e
      else
        var r := DeleteFields(e.store, bucket, prefix, name, cur, order[1..]);
        if r.status.Done? then
          DeleteFieldsStep(st, e.store, r.store, bucket, prefix, name, cur, order);
          r
        else r
  }

  /** Gluing one field's removal onto the removals for the remaining fields. */
  lemma DeleteFieldsStep(st: Store, mid: Store, end: Store, bucket: Bytes, prefix: Bytes, name: Bytes,
                         cur: Data, order: seq<Bytes>)
    requires |order| > 0
    requires Applied(st, mid, IndexLocs(bucket, prefix, name, cur, {order[0]}), {})
    requires Applied(mid, end, IndexLocs(bucket, prefix, name, cur, FieldSet(order[1..])), {})
    ensures Applied(st, end, IndexLocs(bucket, prefix, name, cur, FieldSet(order)), {})
  {
    assert FieldSet(order) == {order[0]} + FieldSet(order[1..]);
    AppliedCompose(st, mid, end, IndexLocs(bucket, prefix, name, cur, {order[0]}), {},
                   IndexLocs(bucket, prefix, name, cur, FieldSet(order[1..])), {});
    IndexLocsUnion(bucket, prefix, name, cur, {order[0]}, FieldSet(order[1..]));
  }

  /** `RiakObject.delete`: remember the data held now, delete the primary
      record, then remove the index entries that data called for. */
  function DeleteObject(c: Client, st: Store, o: Object, order: seq<Bytes>): (r: Effect)
    requires Enumerates(order, FieldsFor(c, o.bucket, o.key))
    ensures SplitKey(o.key).Err? ==> r == Effect(Remove(st, PrimaryLoc(o)), Raised(TooFewParts(o.key)))
    ensures SplitKey(o.key).Ok? ==>
      var prefix, name := SplitKey(o.key).value.0, SplitKey(o.key).value.1;
      var fields := Lookup(c, o.bucket, prefix);
      && (r.status.Done? <==> forall f :: f in fields ==> f in o.data)
      && (r.status.Raised? ==> r.status.error.MissingField? && r.status.error.field in fields)
      && (r.status.Done? ==>
            Applied(Remove(st, PrimaryLoc(o)), r.store, IndexLocs(o.bucket, prefix, name, o.data, fields), {}))
    ensures PrimaryLoc(o) !in r.store.objects
    ensures forall l: Loc :: l != PrimaryLoc(o) && !IsIndexBucketOf(l.bucket, o.bucket, KeyPrefix(o.key)) ==> Same(st, r.store, l)
  {
    var cur := o.data;
    var st1 := Remove(st, PrimaryLoc(o));
    NotOwnIndexBucket(o.bucket, KeyPrefix(o.key));
    match SplitKey(o.key)
    case Err(e) => Effect(st1, Raised(e))
    case Ok((prefix, name)) =>
      if GroupKey(o.bucket, prefix) !in c.indexes then
        Effect(st1, Done)
      else
        assert FieldSet(order) == Lookup(c, o.bucket, prefix);
        DeleteFields(st1, o.bucket, prefix, name, cur, order)
  }
}

=== FILE: lifecycle_props.dfy ===
/** What `store` and `delete` promise about index entries, stated over the
    model of `Lifecycle`: which entries exist after each operation, what an
    update moves, what a delete undoes, and the consistency invariant that
    every stored record's indexed fields have entries. */
module LifecycleProperties {
  import opened Text
  import opened Errors
  import opened Codec
  import opened Naming
  import opened Registry
  import opened Lifecycle

  /** An entry the data calls for is one of its entries. */
  lemma IndexLocMember(b: Bytes, p: Bytes, n: Bytes, d: Data, fields: set<Bytes>, f: Bytes)
    requires f in fields && f in d
    ensures IndexLoc(b, p, n, f, d[f]) in IndexLocs(b, p, n, d, fields)
  {
  }

  /** An entry of one record, with bucket and prefix free of `=`, belongs to
      that record's bucket, prefix and local name, and to one of its fields
      whose value renders to the same text. */
  lemma IndexLocOwner(b: Bytes, p: Bytes, n: Bytes, d: Data, fields: set<Bytes>,
                      b': Bytes, p': Bytes, n': Bytes, f': Bytes, v': Value)
    requires '=' !in b && '=' !in p && '=' !in b' && '=' !in p'
    requires IndexLoc(b', p', n', f', v') in IndexLocs(b, p, n, d, fields)
    ensures b' == b && p' == p && n' == n
    ensures f' in fields && f' in d && Render(v') == Render(d[f'])
  {
    var g :| g in fields && g in d && IndexLoc(b, p, n, g, d[g]) == IndexLoc(b', p', n', f', v');
    IndexBucketInjective(b, p, g, b', p', f');
    IndexKeyInjective(n, EscapeValue(d[g]), n', EscapeValue(v'));
  }

  /** Values that escape alike render alike. */
  lemma EscapeValueInjective(v1: Value, v2: Value)
    requires EscapeValue(v1) == EscapeValue(v2)
    ensures Render(v1) == Render(v2)
  {
  }

  // ---- store -----------------------------------------------------------------

  /** After a complete store, the record holds its data and every registered
      field has an entry for its current value. */
  lemma StoreWritesEveryEntry(c: Client, st: Store, o: Object, order: seq<Bytes>, prefix: Bytes, name: Bytes)
    requires Enumerates(order, FieldsFor(c, o.bucket, o.key))
    requires o.key == JoinKey(prefix, name) && '_' !in prefix
    requires StoreObject(c, st, o, order).status.Done?
    ensures forall f :: f in Lookup(c, o.bucket, prefix) ==>
      && f in o.data
      && IndexLoc(o.bucket, prefix, name, f, o.data[f]) in StoreObject(c, st, o, order).store.objects
      && StoreObject(c, st, o, order).store.objects[IndexLoc(o.bucket, prefix, name, f, o.data[f])] == IndexBody
  {
    SplitKeyOfJoin(prefix, name);
    var fields := Lookup(c, o.bucket, prefix);
    forall f | f in fields
      ensures f in o.data
      ensures IndexLoc(o.bucket, prefix, name, f, o.data[f]) in StoreObject(c, st, o, order).store.objects
      ensures StoreObject(c, st, o, order).store.objects[IndexLoc(o.bucket, prefix, name, f, o.data[f])] == IndexBody
    {
      IndexLocMember(o.bucket, prefix, name, o.data, fields, f);
    }
  }

  /** A key whose prefix has no registered index is stored like a plain
      record: only the primary record is written. */
  lemma StoreUnindexedKey(c: Client, st: Store, o: Object, order: seq<Bytes>)
    requires Enumerates(order, FieldsFor(c, o.bucket, o.key))
    requires SplitKey(o.key).Ok? && Lookup(c, o.bucket, SplitKey(o.key).value.0) == {}
    ensures StoreObject(c, st, o, order) == Effect(Put(st, PrimaryLoc(o), o.data), Done)
  {
  }

  /** Updating a stored record: after `set_data` and a complete store, a
      field's entry for the value it had is gone whenever the value's text
      changed, and the entry for the new value is there. */
  lemma UpdateMovesEntry(c: Client, st: Store, o: Object, d: Data, order: seq<Bytes>,
                         prefix: Bytes, name: Bytes, f: Bytes)
    requires HasData(o.data)
    requires o.key == JoinKey(prefix, name) && '_' !in prefix
    requires Enumerates(order, FieldsFor(c, o.bucket, o.key))
    requires StoreObject(c, st, SetData(o, d), order).status.Done?
    requires f in Lookup(c, o.bucket, prefix)
    ensures f in o.data && f in d
    ensures Render(o.data[f]) != Render(d[f]) ==>
      IndexLoc(o.bucket, prefix, name, f, o.data[f]) !in StoreObject(c, st, SetData(o, d), order).store.objects
    ensures IndexLoc(o.bucket, prefix, name, f, d[f]) in StoreObject(c, st, SetData(o, d), order).store.objects
  {
    var o' := SetData(o, d);
    var fields := Lookup(c, o.bucket, prefix);
    SplitKeyOfJoin(prefix, name);
    StoreWritesEveryEntry(c, st, o', order, prefix, name);
    var stale := IndexLoc(o.bucket, prefix, name, f, o.data[f]);
    IndexLocMember(o.bucket, prefix, name, o.data, fields, f);
    assert stale in OldIndexLocs(o.bucket, prefix, name, o'.oldData, fields);
    if Render(o.data[f]) != Render(d[f]) && stale in IndexLocs(o.bucket, prefix, name, d, fields) {
      var g :| g in fields && g in d && IndexLoc(o.bucket, prefix, name, g, d[g]) == stale;
      IndexBucketFieldInjective(o.bucket, prefix, g, f);
      IndexKeyInjective(name, EscapeValue(d[g]), name, EscapeValue(o.data[f]));
    }
  }

  /** A record stored without a snapshot (a new object) removes no entry:
      whatever entry an earlier value of the same key left stays behind. */
  lemma StoreWithoutSnapshotKeepsEntries(c: Client, st: Store, o: Object, order: seq<Bytes>)
    requires !HasData(o.oldData)
    requires Enumerates(order, FieldsFor(c, o.bucket, o.key))
    requires StoreObject(c, st, o, order).status.Done?
    ensures forall l :: l in st.objects ==> l in StoreObject(c, st, o, order).store.objects
  {
    var r := StoreObject(c, st, o, order);
    forall l | l in st.objects
      ensures l in r.store.objects
    {
      if SplitKey(o.key).Ok? && l != PrimaryLoc(o) {
        assert Same(st, Put(st, PrimaryLoc(o), o.data), l);
      }
    }
  }

  /** The entry a new object's earlier value left is still there after the
      new object is stored with a different value. */
  lemma StaleEntrySurvives(c: Client, st: Store, bucket: Bytes, prefix: Bytes, name: Bytes, d: Data,
                           order: seq<Bytes>, f: Bytes, earlier: Value)
    requires Enumerates(order, FieldsFor(c, bucket, JoinKey(prefix, name)))
    requires StoreObject(c, st, NewObject(bucket, JoinKey(prefix, name), d), order).status.Done?
    requires IndexLoc(bucket, prefix, name, f, earlier) in st.objects
    ensures IndexLoc(bucket, prefix, name, f, earlier) in StoreObject(c, st, NewObject(bucket, JoinKey(prefix, name), d), order).store.objects
  {
    StoreWithoutSnapshotKeepsEntries(c, st, NewObject(bucket, JoinKey(prefix, name), d), order);
  }

  // ---- delete ----------------------------------------------------------------

  /** After a complete delete, neither the record nor any entry its data
      called for is left. */
  lemma DeleteRemovesEveryEntry(c: Client, st: Store, o: Object, order: seq<Bytes>, prefix: Bytes, name: Bytes)
    requires Enumerates(order, FieldsFor(c, o.bucket, o.key))
    requires o.key == JoinKey(prefix, name) && '_' !in prefix
    requires DeleteObject(c, st, o, order).status.Done?
    ensures forall f :: f in Lookup(c, o.bucket, prefix) ==>
      f in o.data && IndexLoc(o.bucket, prefix, name, f, o.data[f]) !in DeleteObject(c, st, o, order).store.objects
  {
    SplitKeyOfJoin(prefix, name);
    var fields := Lookup(c, o.bucket, prefix);
    forall f | f in fields
      ensures f in o.data && IndexLoc(o.bucket, prefix, name, f, o.data[f]) !in DeleteObject(c, st, o, order).store.objects
    {
      IndexLocMember(o.bucket, prefix, name, o.data, fields, f);
    }
  }

  /** Storing a new object and then deleting it leaves every other location
      as it was: the record and the entries its data called for are gone. */
  lemma DeleteUndoesStore(c: Client, st: Store, o: Object, order: seq<Bytes>, prefix: Bytes, name: Bytes)
    requires !HasData(o.oldData)
    requires o.key == JoinKey(prefix, name) && '_' !in prefix
    requires Enumerates(order, FieldsFor(c, o.bucket, o.key))
    requires StoreObject(c, st, o, order).status.Done?
    requires DeleteObject(c, StoreObject(c, st, o, order).store, o, order).status.Done?
    ensures var entries := IndexLocs(o.bucket, prefix, name, o.data, Lookup(c, o.bucket, prefix));
      var end := DeleteObject(c, StoreObject(c, st, o, order).store, o, order).store;
      && PrimaryLoc(o) !in end.objects
      && (forall l :: l in entries ==> l !in end.objects)
      && (forall l :: l != PrimaryLoc(o) && l !in entries ==> Same(st, end, l))
  {
    SplitKeyOfJoin(prefix, name);
    var entries := IndexLocs(o.bucket, prefix, name, o.data, Lookup(c, o.bucket, prefix));
    var mid := StoreObject(c, st, o, order).store;
    var end := DeleteObject(c, mid, o, order).store;
    forall l | l != PrimaryLoc(o) && l !in entries
      ensures Same(st, end, l)
    {
      assert Same(st, Put(st, PrimaryLoc(o), o.data), l);
      assert Same(mid, Remove(mid, PrimaryLoc(o)), l);
    }
  }

  // ---- consistency -------------------------------------------------------------

  /** The record at `l` has an entry for every registered field its data
      holds.  Only records in buckets, and under prefixes, free of `=` are
      covered: the index naming cannot tell the others apart. */
  ghost predicate Indexed(c: Client, st: Store, l: Loc)
  {
    l in st.objects && '=' !in l.bucket && SplitKey(l.key).Ok? && '=' !in SplitKey(l.key).value.0 ==>
      var (p, n) := SplitKey(l.key).value;
      forall f :: f in Lookup(c, l.bucket, p) && f in st.objects[l] ==>
        IndexLoc(l.bucket, p, n, f, st.objects[l][f]) in st.objects
  }

  /** Every record is indexed. */
  ghost predicate Consistent(c: Client, st: Store)
  {
    forall l :: Indexed(c, st, l)
  }

  /** The empty store is consistent. */
  lemma EmptyConsistent(c: Client)
    ensures Consistent(c, Store(map[]))
  {
  }

  /** An entry of the record `o`'s own data is never an entry of another
      record whose bucket and prefix are free of `=`. */
  lemma EntryOwnedByRecord(o: Object, prefix: Bytes, name: Bytes, d: Data, fields: set<Bytes>,
                           l: Loc, p: Bytes, n: Bytes, f: Bytes, v: Value)
    requires '=' !in o.bucket && '=' !in prefix && '=' !in l.bucket && '=' !in p
    requires o.key == JoinKey(prefix, name) && l.key == JoinKey(p, n)
    requires IndexLoc(l.bucket, p, n, f, v) in IndexLocs(o.bucket, prefix, name, d, fields)
    ensures l == PrimaryLoc(o)
  {
    IndexLocOwner(o.bucket, prefix, name, d, fields, l.bucket, p, n, f, v);
  }

  /** A record other than `o` keeps its entries through a store of `o`:
      the only entries the store erases are `o`'s own. */
  lemma StoreKeepsOthersIndexed(c: Client, st: Store, o: Object, order: seq<Bytes>, l: Loc)
    requires Indexed(c, st, l)
    requires '=' !in o.bucket && '=' !in KeyPrefix(o.key)
    requires Enumerates(order, FieldsFor(c, o.bucket, o.key))
    requires StoreObject(c, st, o, order).status.Done?
    requires l != PrimaryLoc(o)
    ensures Indexed(c, StoreObject(c, st, o, order).store, l)
  {
    var r := StoreObject(c, st, o, order).store;
    if l in r.objects && '=' !in l.bucket && SplitKey(l.key).Ok? && '=' !in SplitKey(l.key).value.0 {
      var (p, n) := SplitKey(l.key).value;
      assert Same(st, Put(st, PrimaryLoc(o), o.data), l);
      var (prefix, name) := SplitKey(o.key).value;
      var fields := Lookup(c, o.bucket, prefix);
      forall f | f in Lookup(c, l.bucket, p) && f in r.objects[l]
        ensures IndexLoc(l.bucket, p, n, f, r.objects[l][f]) in r.objects
      {
        var e := IndexLoc(l.bucket, p, n, f, r.objects[l][f]);
        if e in OldIndexLocs(o.bucket, prefix, name, o.oldData, fields) {
          EntryOwnedByRecord(o, prefix, name, o.oldData, fields, l, p, n, f, r.objects[l][f]);
        }
      }
    }
  }

  /** A complete store keeps the store consistent. */
  lemma StorePreservesConsistency(c: Client, st: Store, o: Object, order: seq<Bytes>)
    requires Consistent(c, st)
    requires '=' !in o.bucket && '=' !in KeyPrefix(o.key)
    requires Enumerates(order, FieldsFor(c, o.bucket, o.key))
    requires StoreObject(c, st, o, order).status.Done?
    ensures Consistent(c, StoreObject(c, st, o, order).store)
  {
    var r := StoreObject(c, st, o, order).store;
    forall l
      ensures Indexed(c, r, l)
    {
      if l == PrimaryLoc(o) {
        if SplitKey(l.key).Ok? {
          var (p, n) := SplitKey(l.key).value;
          StoreWritesEveryEntry(c, st, o, order, p, n);
        }
      } else {
        StoreKeepsOthersIndexed(c, st, o, order, l);
      }
    }
  }

  /** A complete delete keeps the store consistent. */
  lemma DeletePreservesConsistency(c: Client, st: Store, o: Object, order: seq<Bytes>)
    requires Consistent(c, st)
    requires '=' !in o.bucket && '=' !in KeyPrefix(o.key)
    requires Enumerates(order, FieldsFor(c, o.bucket, o.key))
    requires DeleteObject(c, st, o, order).status.Done?
    ensures Consistent(c, DeleteObject(c, st, o, order).store)
  {
    var r := DeleteObject(c, st, o, order).store;
    var st1 := Remove(st, PrimaryLoc(o));
    forall l
      ensures Indexed(c, r, l)
    {
      if l in r.objects && '=' !in l.bucket && SplitKey(l.key).Ok? && '=' !in SplitKey(l.key).value.0 {
        var (p, n) := SplitKey(l.key).value;
        assert l != PrimaryLoc(o);
        assert Same(st, st1, l) && Same(st1, r, l);
        assert Indexed(c, st, l);
        forall f | f in Lookup(c, l.bucket, p) && f in r.objects[l]
          ensures IndexLoc(l.bucket, p, n, f, r.objects[l][f]) in r.objects
        {
          var e := IndexLoc(l.bucket, p, n, f, r.objects[l][f]);
          assert e in st.objects;
          match SplitKey(o.key)
          case Err(_) =>
          case Ok((prefix, name)) =>
            var fields := Lookup(c, o.bucket, prefix);
            if e in IndexLocs(o.bucket, prefix, name, o.data, fields) {
              EntryOwnedByRecord(o, prefix, name, o.data, fields, l, p, n, f, r.objects[l][f]);
            }
        }
      }
    }
  }
}

=== FILE: naming.dfy ===
/** How index records are named (`RiakIndex.idx_bkt_form`, `idx_key_form`),
    how a primary key is split into its prefix and local name, and how an
    index key is read back (`RiakIndex._decode_index_key`). */
module Naming {
  import opened Text
  import opened Errors
  import opened Codec

  /** The registry key of a (bucket, key prefix) pair. */
  function GroupKey(bucket: Bytes, prefix: Bytes): Bytes
  {
    bucket + "=" + prefix
  }

  /** `idx=<bucket>=<key_prefix>=<field>`: the bucket holding one index. */
  function IndexBucket(bucket: Bytes, prefix: Bytes, field: Bytes): (r: Bytes)
    ensures '=' in r
    ensures r == "idx" + "=" + (bucket + "=" + (prefix + "=" + field))
  {
    var r := "idx=" + bucket + "=" + prefix + "=" + field;
    assert r[3] == '=';
    r
  }

  /** `b` names the index bucket of some field for (bucket, prefix). */
  ghost predicate IsIndexBucketOf(b: Bytes, bucket: Bytes, prefix: Bytes)
  {
    exists f :: b == IndexBucket(bucket, prefix, f)
  }

  /** A bucket is never one of its own index buckets: each of those is longer. */
  lemma NotOwnIndexBucket(bucket: Bytes, prefix: Bytes)
    ensures !IsIndexBucketOf(bucket, bucket, prefix)
  {
    forall f ensures bucket != IndexBucket(bucket, prefix, f) {
      assert |IndexBucket(bucket, prefix, f)| > |bucket|;
    }
  }

  /** A bucket whose name holds no `=` is nobody's index bucket. */
  lemma EqFreeNotIndexBucket(b: Bytes, bucket: Bytes, prefix: Bytes)
    requires '=' !in b
    ensures !IsIndexBucketOf(b, bucket, prefix)
  {
  }

  /** `<key>/<field_val>`: one index record, naming the record's local key
      and the escaped value of the indexed field. */
  function IndexKey(name: Bytes, escaped: Bytes): Bytes
  {
    name + "/" + escaped
  }

  /** `<key_prefix>_<name>`: a primary key under a key prefix. */
  function JoinKey(prefix: Bytes, name: Bytes): Bytes
  {
    prefix + "_" + name
  }

  /** `key_prefix, key_name = key.split("_", 1)`. */
  function SplitKey(key: Bytes): (r: Result<(Bytes, Bytes)>)
    ensures r.Ok? <==> '_' in key
    ensures r.Ok? ==> key == JoinKey(r.value.0, r.value.1) && '_' !in r.value.0
    ensures r.Err? ==> r.error == TooFewParts(key)
  {
    match SplitFirst(key, '_')
    case None => Err(TooFewParts(key))
    case Some(parts) => Ok(parts)
  }

  /** The part of a key before its first `_` (the whole key if there is none). */
  function KeyPrefix(key: Bytes): (r: Bytes)
    ensures '_' in key ==> '_' !in r && JoinKey(r, SplitKey(key).value.1) == key
    ensures '_' !in key ==> r == key
  {
    match SplitFirst(key, '_')
    case None => key
    case Some(parts) => parts.0
  }

  /** A primary key splits back into the prefix and local name it was built
      from, whenever the prefix itself holds no `_`. */
  lemma SplitKeyOfJoin(prefix: Bytes, name: Bytes)
    requires '_' !in prefix
    ensures SplitKey(JoinKey(prefix, name)) == Ok((prefix, name))
  {
    SplitFirstOfJoin(prefix, '_', name);
  }

  /** `_decode_index_key`: split at the first `/` and unquote the value. */
  function DecodeIndexKey(key: Bytes): (r: Result<(Bytes, Bytes)>)
    ensures r.Ok? <==> '/' in key
    ensures r.Ok? ==>
      && '/' !in r.value.0
      && |r.value.0| < |key|
      && key[..|r.value.0|] == r.value.0 && key[|r.value.0|] == '/'
      && r.value.1 == Unquote(key[|r.value.0| + 1..])
    ensures r.Err? ==> r.error == TooFewParts(key)
  {
    match SplitFirst(key, '/')
    case None => Err(TooFewParts(key))
    case Some(parts) => Ok((parts.0, Unquote(parts.1)))
  }

  /** Reading an index key gives back the local name and the text of the
      value, as long as the name holds no `/`. */
  lemma DecodeIndexKeyRoundTrip(name: Bytes, v: Value)
    requires '/' !in name
    ensures DecodeIndexKey(IndexKey(name, EscapeValue(v))) == Ok((name, Render(v)))
  {
    SplitFirstOfJoin(name, '/', EscapeValue(v));
  }

  /** A local name holding a `/` is cut at that `/`: the rest of the name is
      read as part of the value. */
  lemma SlashInNameMisparses()
    ensures DecodeIndexKey(IndexKey("a/b", EscapeValue(IntV(7)))) == Ok(("a", "b/7"))
  {
    EscapeScalars(7);
    assert DecimalText(7) == "7";
    SplitFirstOfJoin("a", '/', "b/7");
    assert IndexKey("a/b", "7") == "a" + "/" + "b/7";
  }

  /** Past the separator an index key holds no `/` when the value holds none. */
  lemma NoSlashAfterSeparator(n: Bytes, e: Bytes)
    requires '/' !in e
    ensures forall m :: |n| < m < |IndexKey(n, e)| ==> IndexKey(n, e)[m] != '/'
  {
    forall m | |n| < m < |IndexKey(n, e)|
      ensures IndexKey(n, e)[m] != '/'
    {
      assert IndexKey(n, e)[m] == e[m - |n| - 1];
    }
  }

  /** Escaped values hold no `/`, so an index key names one local name and
      one value. */
  lemma IndexKeyInjective(n1: Bytes, e1: Bytes, n2: Bytes, e2: Bytes)
    requires '/' !in e1 && '/' !in e2
    requires IndexKey(n1, e1) == IndexKey(n2, e2)
    ensures n1 == n2 && e1 == e2
  {
    var k := IndexKey(n1, e1);
    NoSlashAfterSeparator(n1, e1);
    NoSlashAfterSeparator(n2, e2);
    assert k[|n1|] == '/' && k[|n2|] == '/';
    assert |n1| == |n2|;
    assert e1 == k[|n1| + 1..] && e2 == k[|n2| + 1..];
    assert n1 == k[..|n1|] && n2 == k[..|n2|];
  }

  /** When bucket names and key prefixes hold no `=`, an index bucket names
      one bucket, one prefix and one field. */
  lemma IndexBucketInjective(b1: Bytes, p1: Bytes, f1: Bytes, b2: Bytes, p2: Bytes, f2: Bytes)
    requires '=' !in b1 && '=' !in p1 && '=' !in b2 && '=' !in p2
    requires IndexBucket(b1, p1, f1) == IndexBucket(b2, p2, f2)
    ensures b1 == b2 && p1 == p2 && f1 == f2
  {
    var r1, r2 := p1 + "=" + f1, p2 + "=" + f2;
    JoinInjective("idx", b1 + "=" + r1, "idx", b2 + "=" + r2, '=');
    JoinInjective(b1, r1, b2, r2, '=');
    JoinInjective(p1, f1, p2, f2, '=');
  }

  /** Within one bucket and prefix, distinct fields have distinct index buckets. */
  lemma IndexBucketFieldInjective(b: Bytes, p: Bytes, f1: Bytes, f2: Bytes)
    requires IndexBucket(b, p, f1) == IndexBucket(b, p, f2)
    ensures f1 == f2
  {
    var n := |"idx=" + b + "=" + p + "="|;
    assert f1 == IndexBucket(b, p, f1)[n..];
    assert f2 == IndexBucket(b, p, f2)[n..];
  }

  /** Without the `=` restriction the naming is ambiguous: two different
      (bucket, prefix, field) triples share one index bucket. */
  lemma IndexBucketAmbiguous()
    ensures IndexBucket("a=b", "c", "d") == IndexBucket("a", "b", "c=d")
  {
  }
}

=== FILE: query.dfy ===
/** `RiakIndex.query`: the key-filtered MapReduce job a query builds, and how
    the matches the job returns are read back into (bucket, key, value) rows.

    Running the job is Riak's business: the model receives the job's outcome
    from a caller-supplied function and does not evaluate the key filters. */
module Query {
  import opened Text
  import opened Errors
  import opened Codec
  import opened Naming
  import opened Registry

  /** One step of the job's key-filter pipeline. */
  datatype Filter =
    | UrlDecode
    | Tokenize(separator: Bytes, position: nat)
    | StringToInt
    | StringToFloat
    | Compare(op: Bytes, operand: Value)

  /** A MapReduce job: the bucket it reads, its key filters, and its reduce phase. */
  datatype Job = Job(input: Bytes, keyFilters: seq<Filter>, reducePhase: (Bytes, Bytes))

  /** Riak's built-in identity reduce. */
  const IdentityReduce: (Bytes, Bytes) := ("riak_kv_mapreduce", "reduce_identity")

  /** What running a job gives: the matching (bucket, key) pairs, or the
      message of the exception it raised. */
  datatype Match = Match(bucket: Bytes, key: Bytes)
  datatype RunOutcome = Completed(matches: seq<Match>) | RunFailed(message: Bytes)

  /** One decoded result: the primary record's bucket and key and the indexed value. */
  datatype Row = Row(bucket: Bytes, key: Bytes, value: Value)

  // ---- building the job ------------------------------------------------------

  /** Python's `int(value)` on a query value.  Converting a float is not
      modelled and reported as not an integer. */
  function IntOf(v: Value): (r: Result<int>)
    ensures r.Err? ==> r.error == NotAnInteger(Render(v))
    ensures v.IntV? ==> r == Ok(v.i)
    ensures v.BoolV? ==> r == Ok(if v.b then 1 else 0)
    ensures v.TextV? ==> (r.Ok? <==> ParseInt(v.text).Some?) && (r.Ok? ==> r.value == ParseInt(v.text).value)
    ensures v.FloatV? ==> r.Err?
  {
    match v
    case IntV(i) => Ok(i)
    case BoolV(b) => Ok(if b then 1 else 0)
    case FloatV(f) => Err(NotAnInteger(f))
    case TextV(t) =>
      match ParseInt(t)
      case None => Err(NotAnInteger(t))
      case Some(i) => Ok(i)
  }

  /** `int()` of an integer or a bool agrees with `int()` of its text. */
  lemma IntOfRender(v: Value)
    requires v.IntV? || v.BoolV?
    ensures IntOf(TextV(Render(v))) == IntOf(v)
  {
    if v.IntV? {
      ParseDecimalText(v.i);
    } else {
      assert ParseInt("1") == Some(1) by { assert DigitsValue("1") == DigitsValue("") * 10 + 1; }
      assert ParseInt("0") == Some(0) by { assert DigitsValue("0") == DigitsValue("") * 10; }
    }
  }

  /** The value the comparison filter is given: numbers as they are, a bool
      index's value through `int()`, and anything else escaped like a stored
      value. */
  function Operand(t: FieldType, v: Value): (r: Result<Value>)
    ensures r.Err? <==> t == BoolType && IntOf(v).Err?
    ensures r.Err? ==> r.error == IntOf(v).error
    ensures t == BoolType && r.Ok? ==> r.value == IntV(IntOf(v).value)
    ensures (t == StrType || t == UnicodeType) ==> r == Ok(TextV(EscapeValue(v)))
    ensures (t == IntType || t == FloatType) ==> r == Ok(v)
  {
    match t
    case IntType => Ok(v)
    case FloatType => Ok(v)
    case BoolType =>
      (match IntOf(v)
       case Err(e) => Err(e)
       case Ok(i) => Ok(IntV(i)))
    case _ => Ok(TextV(EscapeValue(v)))
  }

  /** The filter that converts the second token before comparing, if any. */
  function Conversion(t: FieldType): (r: seq<Filter>)
    ensures |r| <= 1
    ensures StringToInt in r <==> t == IntType || t == BoolType
    ensures StringToFloat in r <==> t == FloatType
    ensures t == StrType || t == UnicodeType ==> r == []
  {
    match t
    case IntType => [StringToInt]
    case FloatType => [StringToFloat]
    case BoolType => [StringToInt]
    case _ => []
  }

  /** The job `query(compare_op, value)` hands to the client: it reads the
      quoted index bucket, URL-decodes each key, keeps its second `/`-token,
      converts it for numeric and bool indexes, compares it with the operand,
      and reduces with the identity. */
  function BuildJob(idx: Index, op: Bytes, v: Value): (r: Result<Job>)
    ensures r.Err? <==> idx.ftype == BoolType && IntOf(v).Err?
    ensures r.Err? ==> r.error == IntOf(v).error
    ensures r.Ok? ==>
      && Unquote(r.value.input) == IndexBucket(idx.bucket, idx.prefix, idx.field)
      && r.value.reducePhase == IdentityReduce
      && |r.value.keyFilters| >= 3
      && r.value.keyFilters[..2] == [UrlDecode, Tokenize("/", 2)]
      && r.value.keyFilters[|r.value.keyFilters| - 1] == Compare(op, Operand(idx.ftype, v).value)
      && (|r.value.keyFilters| == 4 <==> idx.ftype in {IntType, FloatType, BoolType})
    ensures r.Ok? ==> r.value.input == Quote(IndexBucket(idx.bucket, idx.prefix, idx.field), {'/'})
    ensures r.Ok? && (idx.ftype == IntType || idx.ftype == BoolType) ==> r.value.keyFilters[2] == StringToInt
    ensures r.Ok? && idx.ftype == FloatType ==> r.value.keyFilters[2] == StringToFloat
  {
    match Operand(idx.ftype, v)
    case Err(e) => Err(e)
    case Ok(operand) =>
      var input := Quote(IndexBucket(idx.bucket, idx.prefix, idx.field), {'/'});
      UnquoteQuote(IndexBucket(idx.bucket, idx.prefix, idx.field), {'/'});
      var filters := [UrlDecode, Tokenize("/", 2)] + Conversion(idx.ftype) + [Compare(op, operand)];
      assert filters[..2] == [UrlDecode, Tokenize("/", 2)];
      Ok(Job(input, filters, IdentityReduce))
  }

  // ---- reading the matches back ----------------------------------------------

  /** `x, data_bucket, prefix, y = name.split("=", 3)`: the bucket and prefix
      between the first three `=`; fewer than three is an unpacking error. */
  function SplitIndexBucket(s: Bytes): (r: Result<(Bytes, Bytes)>)
    ensures r.Ok? <==> Count(s, '=') >= 3
    ensures r.Ok? ==> '=' !in r.value.0 && '=' !in r.value.1
    ensures r.Err? ==> r.error == TooFewParts(s)
    ensures r.Ok? ==> exists head, tail ::
      '=' !in head && s == head + ['='] + (r.value.0 + ['='] + (r.value.1 + ['='] + tail))
  {
    match SplitFirst(s, '=')
    case None => Err(TooFewParts(s))
    case Some((head, rest1)) =>
      CountSplitFirst(s, '=');
      match SplitFirst(rest1, '=')
      case None => Err(TooFewParts(s))
      case Some((bucket, rest2)) =>
        CountSplitFirst(rest1, '=');
        match SplitFirst(rest2, '=')
        case None => Err(TooFewParts(s))
        case Some((prefix, tail)) =>
          CountSplitFirst(rest2, '=');
          assert s == head + ['='] + (bucket + ['='] + (prefix + ['='] + tail));
          Ok((bucket, prefix))
  }

  /** An index bucket splits back into its bucket and prefix when neither holds `=`. */
  lemma SplitIndexBucketOfIndexBucket(bucket: Bytes, prefix: Bytes, field: Bytes)
    requires '=' !in bucket && '=' !in prefix
    ensures SplitIndexBucket(IndexBucket(bucket, prefix, field)) == Ok((bucket, prefix))
  {
    SplitFirstOfJoin("idx", '=', bucket + "=" + (prefix + "=" + field));
    SplitFirstOfJoin(bucket, '=', prefix + "=" + field);
    SplitFirstOfJoin(prefix, '=', field);
  }

  /** The declared type applied to a decoded value: `int()` for an int index,
      `bool()` (true for any non-empty text) for a bool index, the text itself
      otherwise.  A float index keeps the text; `float()` is not modelled. */
  function DecodeTyped(t: FieldType, text: Bytes): (r: Result<Value>)
    ensures r.Err? <==> t == IntType && ParseInt(text).None?
    ensures r.Err? ==> r.error == NotAnInteger(text)
    ensures t == IntType && r.Ok? ==> r.value == IntV(ParseInt(text).value)
    ensures t == FloatType ==> r == Ok(FloatV(text))
    ensures t == BoolType ==> r == Ok(BoolV(|text| > 0))
    ensures t == StrType || t == UnicodeType ==> r == Ok(TextV(text))
  {
    match t
    case IntType =>
      (match ParseInt(text)
       case None => Err(NotAnInteger(text))
       case Some(i) => Ok(IntV(i)))
    case FloatType => Ok(FloatV(text))
    case BoolType => Ok(BoolV(|text| > 0))
    case _ => Ok(TextV(text))
  }

  /** The value a stored entry of declared type `t` holds, as a query row
      gives it back. */
  predicate FitsType(t: FieldType, v: Value)
  {
    match t
    case IntType => v.IntV?
    case FloatType => v.FloatV?
    case BoolType => v.BoolV?
    case _ => v.TextV?
  }

  /** Integers and strings come back from their rendered text as they went
      in; a float comes back as its rendered text, which is all the model
      keeps of it. */
  lemma DecodeTypedRender(t: FieldType, v: Value)
    requires FitsType(t, v) && t != BoolType
    ensures DecodeTyped(t, Render(v)) == Ok(v)
  {
    if t == IntType {
      ParseDecimalText(v.i);
    }
  }

  /** A bool index reads every stored bool back as true: `"0"` is a
      non-empty string. */
  lemma DecodeBoolAlwaysTrue(b: bool)
    ensures DecodeTyped(BoolType, Render(BoolV(b))) == Ok(BoolV(true))
  {
  }

  /** One match, once its bucket and key names are unquoted: the index
      bucket gives the data bucket and key prefix, the index key gives the
      local name and the value, which `_unescval` unquotes once more. */
  function DecodeNames(t: FieldType, bucketName: Bytes, keyName: Bytes): (r: Result<Row>)
    ensures SplitIndexBucket(bucketName).Err? ==> r == Err(TooFewParts(bucketName))
    ensures SplitIndexBucket(bucketName).Ok? && '/' !in keyName ==> r == Err(TooFewParts(keyName))
    ensures r.Ok? ==> '/' in keyName && DecodeTyped(t, DecodeIndexKey(keyName).value.1).Ok?
    ensures r.Err? ==> r.error.TooFewParts? || r.error.NotAnInteger?
    ensures r.Ok? ==>
      && SplitIndexBucket(bucketName).Ok?
      && r.value == Row(SplitIndexBucket(bucketName).value.0,
                        JoinKey(SplitIndexBucket(bucketName).value.1, DecodeIndexKey(keyName).value.0),
                        DecodeTyped(t, DecodeIndexKey(keyName).value.1).value)
  {
    var split, key := SplitIndexBucket(bucketName), DecodeIndexKey(keyName);
    if split.Err? then Err(split.error)
    else if key.Err? then Err(key.error)
    else
      var typed := DecodeTyped(t, key.value.1);
      if typed.Err? then Err(typed.error)
      else Ok(Row(split.value.0, JoinKey(split.value.1, key.value.0), typed.value))
  }

  /** One match as the job returns it: both names are unquoted first. */
  function DecodeMatch(t: FieldType, m: Match): (r: Result<Row>)
    ensures r.Ok? ==> Count(Unquote(m.bucket), '=') >= 3 && '/' in Unquote(m.key)
    ensures r.Ok? ==> r.value.bucket == SplitIndexBucket(Unquote(m.bucket)).value.0
    ensures r.Ok? ==>
      var split, key := SplitIndexBucket(Unquote(m.bucket)), DecodeIndexKey(Unquote(m.key));
      && split.Ok? && key.Ok?
      && r.value.key == JoinKey(split.value.1, key.value.0)
      && DecodeTyped(t, key.value.1) == Ok(r.value.value)
    ensures r.Err? ==> r.error.TooFewParts? || r.error.NotAnInteger?
  {
    DecodeNames(t, Unquote(m.bucket), Unquote(m.key))
  }

  /** The loop over the job's matches: every match decodes, in order, or
      the first failure ends the query. */
  function DecodeMatches(t: FieldType, ms: seq<Match>): (r: Result<seq<Row>>)
    ensures r.Ok? <==> forall i :: 0 <= i < |ms| ==> DecodeMatch(t, ms[i]).Ok?
    ensures r.Ok? ==> |r.value| == |ms| && forall i :: 0 <= i < |ms| ==> r.value[i] == DecodeMatch(t, ms[i]).value
    ensures r.Err? ==> exists i :: 0 <= i < |ms| && DecodeMatch(t, ms[i]) == Err(r.error)
                                   && forall j :: 0 <= j < i ==> DecodeMatch(t, ms[j]).Ok?
    ensures r.Err? ==> r.error.TooFewParts? || r.error.NotAnInteger?
  {
    MapAll(m => DecodeMatch(t, m), ms)
  }

  /** `RiakIndex.query(compare_op, value)`: refuse an index no client holds,
      build and run the job, turn a failure of the run into an index error,
      and decode the matches. */
  function RunQuery(idx: Index, op: Bytes, v: Value, run: Job -> RunOutcome): (r: Result<seq<Row>>)
    ensures r == Err(Unbound) <==> !idx.bound
    ensures idx.bound && BuildJob(idx, op, v).Err? ==> r == Err(BuildJob(idx, op, v).error)
    ensures idx.bound && BuildJob(idx, op, v).Ok? ==>
      match run(BuildJob(idx, op, v).value)
      case RunFailed(message) => r == Err(QueryFailed(message))
      case Completed(ms) => r == DecodeMatches(idx.ftype, ms)
  {
    if !idx.bound then Err(Unbound)
    else
      match BuildJob(idx, op, v)
      case Err(e) => Err(e)
      case Ok(job) =>
        match run(job)
        case RunFailed(message) => Err(QueryFailed(message))
        case Completed(ms) => DecodeMatches(idx.ftype, ms)
  }
}

=== FILE: query_props.dfy ===
/** How a query sees the entries `store` writes: the job's comparison meets
    the stored value, and a reported entry decodes back to the record it
    was written for. */
module QueryProperties {
  import opened Text
  import opened Errors
  import opened Codec
  import opened Naming
  import opened Registry
  import opened Lifecycle
  import opened Query

  /** A stored entry as the job reports it: both names in the quoted form
      the client sent them in, with a safe set that does not spare `%`. */
  function Reported(l: Loc, safe: set<Byte>): (r: Match)
    requires '%' !in safe
    ensures Unquote(r.bucket) == l.bucket && Unquote(r.key) == l.key
  {
    UnquoteQuote(l.bucket, safe);
    UnquoteQuote(l.key, safe);
    Match(Quote(l.bucket, safe), Quote(l.key, safe))
  }

  /** The names of the entry written for key `<prefix>_<name>` and value
      `v` decode to that record's bucket and key and the value read through
      the index's type. */
  lemma DecodeEntryNames(bucket: Bytes, prefix: Bytes, name: Bytes, field: Bytes, t: FieldType, v: Value)
    requires '=' !in bucket && '=' !in prefix && '/' !in name
    requires DecodeTyped(t, Render(v)).Ok?
    ensures DecodeNames(t, IndexBucket(bucket, prefix, field), IndexKey(name, EscapeValue(v)))
         == Ok(Row(bucket, JoinKey(prefix, name), DecodeTyped(t, Render(v)).value))
  {
    SplitIndexBucketOfIndexBucket(bucket, prefix, field);
    DecodeIndexKeyRoundTrip(name, v);
  }

  /** The entry written for key `<prefix>_<name>` and value `v` reads back
      as that record's bucket and key and the value: integers and strings
      as they were, a float as its rendered text, bools always as true. */
  lemma QueryReadsEntryBack(bucket: Bytes, prefix: Bytes, name: Bytes, field: Bytes, t: FieldType, v: Value, safe: set<Byte>)
    requires '=' !in bucket && '=' !in prefix && '/' !in name && '%' !in safe
    requires FitsType(t, v)
    ensures t != BoolType ==>
      DecodeMatch(t, Reported(IndexLoc(bucket, prefix, name, field, v), safe)) == Ok(Row(bucket, JoinKey(prefix, name), v))
    ensures t == BoolType ==>
      DecodeMatch(t, Reported(IndexLoc(bucket, prefix, name, field, v), safe)) == Ok(Row(bucket, JoinKey(prefix, name), BoolV(true)))
  {
    var l := IndexLoc(bucket, prefix, name, field, v);
    var m := Reported(l, safe);
    assert DecodeMatch(t, m) == DecodeNames(t, l.bucket, l.key);
    if t != BoolType {
      DecodeTypedRender(t, v);
    }
    DecodeEntryNames(bucket, prefix, name, field, t, v);
  }

  /** URL-decoding a reported entry key gives the local name and, after the
      first `/`, the escaped value: the token the job's filters compare. */
  lemma ReportedKeyToken(bucket: Bytes, prefix: Bytes, name: Bytes, field: Bytes, v: Value, safe: set<Byte>)
    requires '/' !in name && '%' !in safe
    ensures SplitFirst(Unquote(Reported(IndexLoc(bucket, prefix, name, field, v), safe).key), '/')
         == Some((name, EscapeValue(v)))
  {
    SplitFirstOfJoin(name, '/', EscapeValue(v));
  }

  /** The stored token is what the comparison is made against: a string
      index compares it with the escaped operand, and for an int or bool
      index `string_to_int` reads it as the operand's integer. */
  lemma ComparisonSeesStoredValue(t: FieldType, v: Value)
    requires FitsType(t, v) && t != FloatType
    ensures (t == StrType || t == UnicodeType) ==> Operand(t, v) == Ok(TextV(EscapeValue(v)))
    ensures (t == IntType || t == BoolType) ==>
      Operand(t, v).Ok? && Operand(t, v).value.IntV? && ParseInt(EscapeValue(v)) == Some(Operand(t, v).value.i)
  {
    if v.IntV? {
      EscapeScalars(v.i);
      ParseDecimalText(v.i);
    } else if v.BoolV? {
      EscapeScalars(0);
      IntOfRender(v);
    }
  }

  /** A `%` in a string value is escaped as `%25`. */
  lemma EscapePercent()
    ensures EscapeValue(TextV("%41")) == "%2541"
  {
    assert Quote("1", {}) == "1";
    assert Quote("41", {}) == "41";
    assert QuoteByte('%', {}) == "%25";
  }

  /** Unquoting `%2541` once gives `%41`; a second time gives `A`. */
  lemma UnquotePercentTwice()
    ensures Unquote("%2541") == "%41"
    ensures Unquote("%41") == "A"
  {
    assert Unquote("41") == "41";
  }

  /** An entry key whose value part reads `%41` decodes to the value `A`. */
  lemma DecodeUnquotedNames(bucket: Bytes, prefix: Bytes, name: Bytes, field: Bytes)
    requires '=' !in bucket && '=' !in prefix && '/' !in name
    ensures DecodeNames(StrType, IndexBucket(bucket, prefix, field), IndexKey(name, "%41"))
         == Ok(Row(bucket, JoinKey(prefix, name), TextV("A")))
  {
    var key := IndexKey(name, "%41");
    UnquotePercentTwice();
    SplitFirstOfJoin(name, '/', "%41");
    assert DecodeIndexKey(key) == Ok((name, "A"));
    assert DecodeTyped(StrType, "A") == Ok(TextV("A"));
    SplitIndexBucketOfIndexBucket(bucket, prefix, field);
  }

  /** Unquoting a raw entry key `<name>/%2541` gives `<name>/%41`. */
  lemma UnquoteRawKey(name: Bytes)
    requires '%' !in name
    ensures Unquote(IndexKey(name, "%2541")) == IndexKey(name, "%41")
  {
    UnquotePercentTwice();
    UnquoteAppend(name + "/", "%2541");
    assert IndexKey(name, "%2541") == (name + "/") + "%2541";
    assert IndexKey(name, "%41") == (name + "/") + "%41";
  }

  /** If the job reported names raw instead of quoted, the value would be
      unquoted twice: a string value `%41` would read back as `A`. */
  lemma RawNamesUnquoteTwice(bucket: Bytes, prefix: Bytes, name: Bytes, field: Bytes)
    requires '=' !in bucket && '=' !in prefix && '/' !in name
    requires '%' !in IndexBucket(bucket, prefix, field) && '%' !in name
    ensures DecodeMatch(StrType, Match(IndexBucket(bucket, prefix, field), IndexKey(name, EscapeValue(TextV("%41")))))
         == Ok(Row(bucket, JoinKey(prefix, name), TextV("A")))
  {
    EscapePercent();
    UnquoteRawKey(name);
    var ib := IndexBucket(bucket, prefix, field);
    assert DecodeMatch(StrType, Match(ib, IndexKey(name, "%2541"))) == DecodeNames(StrType, ib, IndexKey(name, "%41"));
    DecodeUnquotedNames(bucket, prefix, name, field);
  }

  /** A query on an index no client holds fails, whatever it asks. */
  lemma QueryNeedsClient(bucket: Bytes, prefix: Bytes, field: Bytes, typeName: Bytes,
                         op: Bytes, v: Value, run: Job -> RunOutcome)
    requires NewIndex(bucket, prefix, field, typeName).Ok?
    ensures RunQuery(NewIndex(bucket, prefix, field, typeName).value, op, v, run) == Err(Unbound)
  {
  }
}

=== FILE: registry.dfy ===
/** Index definitions (`RiakIndex.__init__`) and the per-client registry they
    are added to (`RiakClient.add_index`). */
module Registry {
  import opened Text
  import opened Errors
  import opened Naming

  /** The declared type of an indexed field. */
  datatype FieldType = IntType | FloatType | BoolType | StrType | UnicodeType

  /** The name each type is declared by. */
  function TypeName(t: FieldType): Bytes
  {
    match t
    case IntType => "int"
    case FloatType => "float"
    case BoolType => "bool"
    case StrType => "str"
    case UnicodeType => "unicode"
  }

  const AllowedTypeNames: set<Bytes> := {"int", "float", "bool", "str", "unicode"}

  /** Reads a declared type: the name is lower-cased first, and anything
      outside the five allowed names is refused. */
  function ParseFieldType(name: Bytes): (r: Result<FieldType>)
    ensures r.Ok? <==> Lower(name) in AllowedTypeNames
    ensures r.Ok? ==> TypeName(r.value) == Lower(name)
    ensures r.Err? ==> r.error == IllegalDatatype(Lower(name))
  {
    var t := Lower(name);
    if t == "int" then Ok(IntType)
    else if t == "float" then Ok(FloatType)
    else if t == "bool" then Ok(BoolType)
    else if t == "str" then Ok(StrType)
    else if t == "unicode" then Ok(UnicodeType)
    else Err(IllegalDatatype(t))
  }

  /** Every type is read back from its own name, in any letter case. */
  lemma ParseTypeName(t: FieldType, spelled: Bytes)
    requires Lower(spelled) == TypeName(t)
    ensures ParseFieldType(spelled) == Ok(t)
  {
  }

  /** One secondary index: the records of `bucket` whose key starts with
      `prefix_` are indexed on `field`.  `bound` records whether the index has
      been added to a client (`_client` is no longer None). */
  datatype Index = Index(bucket: Bytes, prefix: Bytes, field: Bytes, ftype: FieldType, bound: bool)

  /** `RiakIndex(bucket, key_prefix, indexed_field, field_type)`.  The
      source's default type is `"str"`. */
  function NewIndex(bucket: Bytes, prefix: Bytes, field: Bytes, typeName: Bytes): (r: Result<Index>)
    ensures r.Ok? <==> Lower(typeName) in AllowedTypeNames
    ensures r.Ok? ==> r.value.bucket == bucket && r.value.prefix == prefix && r.value.field == field
    ensures r.Ok? ==> TypeName(r.value.ftype) == Lower(typeName) && !r.value.bound
    ensures r.Err? ==> r.error == IllegalDatatype(Lower(typeName))
  {
    match ParseFieldType(typeName)
    case Err(e) => Err(e)
    case Ok(t) => Ok(Index(bucket, prefix, field, t, false))
  }

  /** Whatever a caller hands to `add_index`: an index definition, or any
      other object. */
  datatype Argument = IndexArg(index: Index) | OtherArg

  /** The indexes of one (bucket, prefix) pair, by field. */
  type Group = map<Bytes, Index>

  /** A client's registry: `GroupKey(bucket, prefix)` to its group. */
  datatype Client = Client(indexes: map<Bytes, Group>)

  /** A fresh client has no indexes. */
  const EmptyClient: Client := Client(map[])

  /** `RiakClient.add_index`: refuse anything but an index, otherwise store
      it under its group and field, replacing any earlier entry, and bind it. */
  function AddIndex(c: Client, arg: Argument): (r: Result<(Client, Index)>)
    ensures r.Err? <==> arg.OtherArg?
    ensures r.Err? ==> r.error == NotAnIndex
    ensures r.Ok? ==>
      var (c', i) := r.value;
      var g := GroupKey(arg.index.bucket, arg.index.prefix);
      && i == arg.index.(bound := true)
      && g in c'.indexes && arg.index.field in c'.indexes[g]
      && c'.indexes[g][arg.index.field] == i
    ensures r.Ok? ==>
      var c' := r.value.0;
      var g := GroupKey(arg.index.bucket, arg.index.prefix);
      && c'.indexes.Keys == c.indexes.Keys + {g}
      && (forall h :: h in c.indexes && h != g ==> c'.indexes[h] == c.indexes[h])
      && (forall f :: f != arg.index.field ==>
            (f in c'.indexes[g] <==> g in c.indexes && f in c.indexes[g]))
      && (forall f :: f in c'.indexes[g] && f != arg.index.field ==> c'.indexes[g][f] == c.indexes[g][f])
  {
    match arg
    case OtherArg => Err(NotAnIndex)
    case IndexArg(index) =>
      var g := GroupKey(index.bucket, index.prefix);
      var bound := index.(bound := true);
      Ok((Client(Register(c.indexes, g, bound)), bound))
  }

  /** The registry update itself: the group under `g` gains (or replaces) the
      entry for the index's field. */
  function Register(m: map<Bytes, Group>, g: Bytes, i: Index): (r: map<Bytes, Group>)
    ensures r.Keys == m.Keys + {g}
    ensures i.field in r[g] && r[g][i.field] == i
    ensures forall f :: f != i.field ==> (f in r[g] <==> g in m && f in m[g])
    ensures forall f :: f in r[g] && f != i.field ==> r[g][f] == m[g][f]
    ensures forall h :: h in m && h != g ==> r[h] == m[h]
  {
    var group := if g in m then m[g] else map[];
    m[g := group[i.field := i]]
  }

  /** The fields indexed for a (bucket, prefix) pair; none when the pair is
      not registered. */
  function Lookup(c: Client, bucket: Bytes, prefix: Bytes): (r: set<Bytes>)
    ensures GroupKey(bucket, prefix) !in c.indexes ==> r == {}
    ensures GroupKey(bucket, prefix) in c.indexes ==> r == c.indexes[GroupKey(bucket, prefix)].Keys
  {
    var g := GroupKey(bucket, prefix);
    if g in c.indexes then c.indexes[g].Keys else {}
  }

  /** Adding an index adds its field to the fields of its own (bucket,
      prefix) pair and leaves every other pair's fields as they were. */
  lemma LookupAddIndex(c: Client, i: Index, bucket: Bytes, prefix: Bytes)
    ensures GroupKey(bucket, prefix) == GroupKey(i.bucket, i.prefix) ==>
      Lookup(AddIndex(c, IndexArg(i)).value.0, bucket, prefix) == Lookup(c, bucket, prefix) + {i.field}
    ensures GroupKey(bucket, prefix) != GroupKey(i.bucket, i.prefix) ==>
      Lookup(AddIndex(c, IndexArg(i)).value.0, bucket, prefix) == Lookup(c, bucket, prefix)
  {
    var g := GroupKey(i.bucket, i.prefix);
    var m' := AddIndex(c, IndexArg(i)).value.0.indexes;
    if GroupKey(bucket, prefix) == g {
      assert m'[g].Keys == Lookup(c, bucket, prefix) + {i.field};
    }
  }

  /** Every registered index sits under its own group and field, and is bound. */
  ghost predicate WellFormed(c: Client)
  {
    forall g, f :: g in c.indexes && f in c.indexes[g] ==>
      var i := c.indexes[g][f];
      g == GroupKey(i.bucket, i.prefix) && f == i.field && i.bound
  }

  /** Adding an index keeps the registry well formed. */
  lemma AddIndexKeepsWellFormed(c: Client, arg: Argument)
    requires WellFormed(c)
    requires AddIndex(c, arg).Ok?
    ensures WellFormed(AddIndex(c, arg).value.0)
  {
    var c' := AddIndex(c, arg).value.0;
    var g0 := GroupKey(arg.index.bucket, arg.index.prefix);
    forall g, f | g in c'.indexes && f in c'.indexes[g]
      ensures var i := c'.indexes[g][f];
              g == GroupKey(i.bucket, i.prefix) && f == i.field && i.bound
    {
      if g != g0 || f != arg.index.field {
        assert g in c.indexes && f in c.indexes[g];
      }
    }
  }

  /** Adding the same index a second time changes nothing. */
  lemma AddIndexIdempotent(c: Client, i: Index)
    ensures AddIndex(AddIndex(c, IndexArg(i)).value.0, IndexArg(i)) == AddIndex(c, IndexArg(i))
  {
    RegisterReplaces(c.indexes, GroupKey(i.bucket, i.prefix), i.(bound := true), i.(bound := true));
  }

  /** Re-adding an index with the same bucket, prefix and field replaces the
      earlier definition, and the result is as if only the later one had been
      added. */
  lemma AddIndexReplaces(c: Client, i1: Index, i2: Index)
    requires i1.bucket == i2.bucket && i1.prefix == i2.prefix && i1.field == i2.field
    ensures AddIndex(AddIndex(c, IndexArg(i1)).value.0, IndexArg(i2)) == AddIndex(c, IndexArg(i2))
  {
    RegisterReplaces(c.indexes, GroupKey(i1.bucket, i1.prefix), i1.(bound := true), i2.(bound := true));
  }

  lemma RegisterReplaces(m: map<Bytes, Group>, g: Bytes, i1: Index, i2: Index)
    requires i1.field == i2.field
    ensures Register(Register(m, g, i1), g, i2) == Register(m, g, i2)
  {
    var x: Group := if g in m then m[g] else map[];
    assert x[i1.field := i1][i2.field := i2] == x[i2.field := i2];
  }

  /** Indexes for different (bucket, prefix, field) triples can be added in
      either order. */
  lemma AddIndexCommutes(c: Client, i1: Index, i2: Index)
    requires GroupKey(i1.bucket, i1.prefix) != GroupKey(i2.bucket, i2.prefix) || i1.field != i2.field
    ensures AddIndex(AddIndex(c, IndexArg(i1)).value.0, IndexArg(i2)).value.0
         == AddIndex(AddIndex(c, IndexArg(i2)).value.0, IndexArg(i1)).value.0
  {
    var g1, g2 := GroupKey(i1.bucket, i1.prefix), GroupKey(i2.bucket, i2.prefix);
    var b1, b2 := i1.(bound := true), i2.(bound := true);
    var m := c.indexes;
    assert AddIndex(AddIndex(c, IndexArg(i1)).value.0, IndexArg(i2)).value.0.indexes
        == Register(Register(m, g1, b1), g2, b2);
    assert AddIndex(AddIndex(c, IndexArg(i2)).value.0, IndexArg(i1)).value.0.indexes
        == Register(Register(m, g2, b2), g1, b1);
    RegisterCommutes(m, g1, b1, g2, b2);
  }

  lemma RegisterCommutes(m: map<Bytes, Group>, g1: Bytes, i1: Index, g2: Bytes, i2: Index)
    requires g1 != g2 || i1.field != i2.field
    ensures Register(Register(m, g1, i1), g2, i2) == Register(Register(m, g2, i2), g1, i1)
  {
    if g1 == g2 {
      RegisterCommutesInGroup(m, g1, i1, i2);
    } else {
      RegisterCommutesAcrossGroups(m, g1, i1, g2, i2);
    }
  }

  lemma RegisterCommutesInGroup(m: map<Bytes, Group>, g: Bytes, i1: Index, i2: Index)
    requires i1.field != i2.field
    ensures Register(Register(m, g, i1), g, i2) == Register(Register(m, g, i2), g, i1)
  {
    var x: Group := if g in m then m[g] else map[];
    assert x[i1.field := i1][i2.field := i2] == x[i2.field := i2][i1.field := i1];
  }

  lemma RegisterCommutesAcrossGroups(m: map<Bytes, Group>, g1: Bytes, i1: Index, g2: Bytes, i2: Index)
    requires g1 != g2
    ensures Register(Register(m, g1, i1), g2, i2) == Register(Register(m, g2, i2), g1, i1)
  {
    var y1: Group := (if g1 in m then m[g1] else map[])[i1.field := i1];
    var y2: Group := (if g2 in m then m[g2] else map[])[i2.field := i2];
    assert Register(Register(m, g1, i1), g2, i2) == m[g1 := y1][g2 := y2];
    assert Register(Register(m, g2, i2), g1, i1) == m[g2 := y2][g1 := y1];
    UpdatesCommute(m, g1, y1, g2, y2);
  }

  /** Updates of two different keys can be made in either order. */
  lemma UpdatesCommute<K, V>(m: map<K, V>, k1: K, v1: V, k2: K, v2: V)
    requires k1 != k2
    ensures m[k1 := v1][k2 := v2] == m[k2 := v2][k1 := v1]
  {
    assert m[k1 := v1][k2 := v2].Keys == m[k2 := v2][k1 := v1].Keys;
  }
}

=== FILE: scenarios.dfy ===
/** The codec and key-decoding cases the repository's tests exercise,
    stated for any safe text around the special bytes. */
module Scenarios {
  import opened Text
  import opened Errors
  import opened Codec
  import opened Naming

  predicate AllSafe(s: Bytes)
  {
    forall i :: 0 <= i < |s| ==> AlwaysSafe(s[i])
  }

  /** The three special bytes of the sample, one at a time. */
  lemma QuoteSpecials()
    ensures Quote("/", {}) == "%2F" && Quote("!", {}) == "%21" && Quote("=", {}) == "%3D"
  {
  }

  /** `/`, `!` and `=` are escaped as `%2F`, `%21` and `%3D`; safe text
      (such as `my_utterly`) is left alone. */
  lemma EscapeSample(a: Bytes, b: Bytes, c: Bytes)
    requires AllSafe(a) && AllSafe(b) && AllSafe(c)
    ensures Escape(a + "/" + b + "!" + c + "=") == a + "%2F" + b + "%21" + c + "%3D"
  {
    EscapeIdentity(a);
    EscapeIdentity(b);
    EscapeIdentity(c);
    QuoteSpecials();
    var s1, s2, s3, s4 := a + "/", a + "/" + b, a + "/" + b + "!", a + "/" + b + "!" + c;
    QuoteAppend(a, "/", {});
    QuoteAppend(s1, b, {});
    QuoteAppend(s2, "!", {});
    QuoteAppend(s3, c, {});
    QuoteAppend(s4, "=", {});
  }

  /** Unquoting reads one `%XX` triple as its byte. */
  lemma UnquoteTriple(x: Bytes, t: Bytes, b: Byte)
    requires |x| == 3 && x[0] == '%' && IsHexDigit(x[1]) && IsHexDigit(x[2])
    requires b as int == HexValue(x[1]) * 16 + HexValue(x[2])
    ensures Unquote(x + t) == [b] + Unquote(t)
  {
    assert (x + t)[3..] == t;
  }

  /** Unquoting copies a `%`-free prefix and then reads one triple. */
  lemma UnquoteTripleAfter(a: Bytes, x: Bytes, t: Bytes, b: Byte)
    requires '%' !in a
    requires |x| == 3 && x[0] == '%' && IsHexDigit(x[1]) && IsHexDigit(x[2])
    requires b as int == HexValue(x[1]) * 16 + HexValue(x[2])
    ensures Unquote(a + x + t) == a + [b] + Unquote(t)
  {
    UnquoteTriple(x, t, b);
    UnquoteAppend(a, x + t);
    assert a + x + t == a + (x + t);
  }

  /** `%21` and `%3D` are read back as `!` and `=`; everything without a
      `%`, including `/`, is kept. */
  lemma UnescapeSample(a: Bytes, c: Bytes)
    requires '%' !in a && '%' !in c
    ensures UnescapeValue(a + "%21" + c + "%3D") == a + "!" + c + "="
  {
    UnquoteTripleAfter(c, "%3D", [], '=');
    assert c + "%3D" + [] == c + "%3D";
    UnquoteTripleAfter(a, "%21", c + "%3D", '!');
    assert a + "%21" + c + "%3D" == a + "%21" + (c + "%3D");
  }

  /** The value part of the sample key is read back with `!`. */
  lemma UnquoteBang(v: Bytes)
    requires '%' !in v
    ensures Unquote(v + "%21") == v + "!"
  {
    UnquoteTripleAfter(v, "%21", [], '!');
    assert v + "%21" + [] == v + "%21";
  }

  /** `_decode_index_key("testkey/test%21")` gives `("testkey", "test!")`:
      the name up to the first `/`, and the value unquoted. */
  lemma DecodeIndexKeySample(name: Bytes, v: Bytes)
    requires '/' !in name && '%' !in v
    ensures DecodeIndexKey(name + "/" + v + "%21") == Ok((name, v + "!"))
  {
    SplitFirstOfJoin(name, '/', v + "%21");
    assert name + "/" + v + "%21" == name + ['/'] + (v + "%21");
    UnquoteBang(v);
  }
}

=== FILE: text.dfy ===
/** Byte strings and the small splitting helpers the index layer is built from.

    The index layer runs on Python 2, where every bucket name, key and field
    name is a `str`, that is a string of bytes.  A byte is modelled as a
    character below 256, so string literals can be used directly. */
module Text {

  type Byte = c: char | c as int < 256 witness 'a'
  type Bytes = seq<Byte>

  datatype Option<+T> = None | Some(value: T)

  /** The position of the first occurrence of `c` in `s`, if there is one. */
  function FindFirst(s: Bytes, c: Byte): (r: Option<nat>)
    ensures r.None? <==> c !in s
    ensures r.Some? ==> r.value < |s| && s[r.value] == c && c !in s[..r.value]
  {
    if |s| == 0 then None
    else if s[0] == c then Some(0)
    else match FindFirst(s[1..], c)
      case None => None
      case Some(i) =>
        assert s[..i + 1] == [s[0]] + s[1..][..i];
        Some(i + 1)
  }

  /** `a, b = s.split(c, 1)`: the parts before and after the first `c`.
      Python raises an unpacking error when `c` does not occur; that is `None`. */
  function SplitFirst(s: Bytes, c: Byte): (r: Option<(Bytes, Bytes)>)
    ensures r.None? <==> c !in s
    ensures r.Some? ==> s == r.value.0 + [c] + r.value.1 && c !in r.value.0
  {
    match FindFirst(s, c)
    case None => None
    case Some(i) =>
      assert s == s[..i] + [c] + s[i + 1..];
      Some((s[..i], s[i + 1..]))
  }

  /** Splitting at the first `c` undoes joining with `c`, as long as the left
      part holds no `c` of its own. */
  lemma SplitFirstOfJoin(a: Bytes, c: Byte, b: Bytes)
    requires c !in a
    ensures SplitFirst(a + [c] + b, c) == Some((a, b))
  {
    var s := a + [c] + b;
    assert s[|a|] == c;
    var r := SplitFirst(s, c);
    var i := FindFirst(s, c).value;
    assert i == |a|;
    assert s[..i] == a;
    assert s[i + 1..] == b;
  }

  /** Joining with a separator the left parts do not hold is injective. */
  lemma JoinInjective(a1: Bytes, b1: Bytes, a2: Bytes, b2: Bytes, c: Byte)
    requires c !in a1 && c !in a2
    requires a1 + [c] + b1 == a2 + [c] + b2
    ensures a1 == a2 && b1 == b2
  {
    SplitFirstOfJoin(a1, c, b1);
    SplitFirstOfJoin(a2, c, b2);
  }

  /** How many times `c` occurs in `s`. */
  function Count(s: Bytes, c: Byte): (r: nat)
    ensures r == 0 <==> c !in s
    ensures r <= |s|
  {
    if |s| == 0 then 0 else (if s[0] == c then 1 else 0) + Count(s[1..], c)
  }

  lemma {:induction false} CountAppend(a: Bytes, b: Bytes, c: Byte)
    ensures Count(a + b, c) == Count(a, c) + Count(b, c)
    decreases |a|
  {
    if |a| > 0 {
      assert (a + b)[1..] == a[1..] + b;
      CountAppend(a[1..], b, c);
    } else {
      assert a + b == b;
    }
  }

  /** Splitting at the first `c` uses up exactly one of its occurrences. */
  lemma CountSplitFirst(s: Bytes, c: Byte)
    requires c in s
    ensures Count(s, c) == 1 + Count(SplitFirst(s, c).value.1, c)
  {
    var (a, b) := SplitFirst(s, c).value;
    CountAppend(a + [c], b, c);
    CountAppend(a, [c], c);
  }

  /** ASCII lower-casing, as Python 2's `str.lower` does in the C locale. */
  function LowerByte(c: Byte): (r: Byte)
  {
    if 'A' <= c <= 'Z' then (c as int + 32) as char else c
  }

  function Lower(s: Bytes): (r: Bytes)
    ensures |r| == |s|
    ensures forall i :: 0 <= i < |s| ==> r[i] == LowerByte(s[i])
    ensures forall i :: 0 <= i < |r| ==> !('A' <= r[i] <= 'Z')
  {
    if |s| == 0 then [] else [LowerByte(s[0])] + Lower(s[1..])
  }
}
